=== FILE: README.md ===
# llm-grimoire CLI core, modelled in Dafny

This project models the logic at the heart of the grimoire command-line tool. The tool keeps
"grimoires": per-project folders of Markdown topic files with a small frontmatter header,
stored under `~/.grimoire/projects/<name>/`. The model covers:

- **Topic reader**: parsing the `---` frontmatter block into key/value data; parsing
  list values such as `[a, b]`; the defaults each topic takes from its file name; the
  order `readAll` returns topics in (file-name order, then a stable sort by `order`);
  and `readOne`.
- **Registry fetcher**: the writer that turns a fetched `{frontmatter, content}` record
  into a topic file, the file writes of an install, and the early return for a project
  that is already installed. It includes a proof that the frontmatter parser reads every
  written topic file back to the record it was written from.
- **grimoire home**: the projects directory as a set of directory paths, `projectExists`
  and `listProjects`.
- **search**: the case-insensitive query filter, the empty-result messages and the
  "installed" badge, both as written and corrected.
- **conjure**: name resolution, creating and updating the configuration from the
  `--github`, `--path` and `--hint` flags, and resolving the source to analyse.
- **init**: URL detection, resolving local paths against the working directory, the
  configuration it writes, and its early exits.
- **analyze**: choosing the target from the flag or the stored source, and resolving
  its path. analyze has no URL case, so a URL source is taken for a local path.
- **incant**: the line-by-line reference text.

File system, HTTP, clock and process state become parameters. These are the directory
listing and file contents, whether a project or directory exists, the registry's
responses, and the working directory. Each command is a pure function from those
parameters to what it writes and what it returns.

The JavaScript semantics the commands rely on are modelled explicitly:

- **Falsy strings.** Truthiness (`if (x)`) treats `""` like an absent value; `??` does
  not. These are `Results.Truthy` and `Results.Coalesce`.
- **String built-ins.** `indexOf`, `split` on one character, `join`, `trim` (the
  ECMAScript whitespace set) and `toLowerCase` are characterised in `Strings`.
- **Regular expressions.** `/\.md$/` and `/^\d+-/` become `BaseName` and
  `StripNumberPrefix`.
- **Sorts.** The default string sort and the stable comparator sort become `SortNames`
  and `SortByOrder`.

Modules, one file each:

- `results.dfy`: Results
- `strings.dfy`: Strings
- `sequences.dfy`: Sequences
- `grimoire_home.dfy`: GrimoireHome
- `paths.dfy`: Paths
- `project_config.dfy`: ProjectConfigs
- `topic_reader.dfy`: TopicReader
- `registry_fetcher.dfy`: RegistryFetcher
- `search.dfy`: Search
- `conjure.dfy`: Conjure
- `init.dfy`: Init
- `analyze.dfy`: Analyze
- `incant.dfy`: Incant

## Model

| member | source | states |
|---|---|---|
| Strings.IndexFrom | src/services/topic-reader.ts:12 | the index found is the first occurrence of the pattern at or after the start position; -1 exactly when there is none from there on |
| Strings.Split | src/services/topic-reader.ts:15 | splitting gives at least one piece, no piece holds the separator, and joining the pieces with the separator gives back the input |
| Strings.SplitJoin | src/services/topic-reader.ts:15 | splitting lines joined by a separator that no line holds gives back exactly those lines |
| Strings.Trim | src/services/topic-reader.ts:25 | trimming leaves no whitespace at either end and removes only whitespace, only at the ends, so the result is a contiguous piece of the input |
| Strings.TrimIdentity | src/services/topic-reader.ts:25 | trimming changes nothing exactly when neither end is whitespace |
| TopicReader.SplitLine | src/services/topic-reader.ts:16-17 | a line yields a key/value pair exactly when it holds ": "; the key is cut at the first ": " (it holds none) and key, separator and value rebuild the line |
| TopicReader.ParseLinesUntouched | src/services/topic-reader.ts:15-18 | lines that do not write a key (including every line without ": ") leave that key's presence and value as they were |
| TopicReader.ParseLinesLastWins | src/services/topic-reader.ts:15-18 | when a key appears on several lines, the last of them decides its value |
| TopicReader.ParseFrontmatter | src/services/topic-reader.ts:10-20 | a document without the opening "---\n", or without a closing "\n---\n" at or after index 4, gives no data and the whole text as content; otherwise the data comes from the lines before the first close and the content is everything after it |
| TopicReader.NonEmpty | src/services/topic-reader.ts:25 | the filter keeps exactly the non-empty pieces, each as often as it occurs and in their original order, and changes nothing when no piece is empty |
| TopicReader.ParseArray | src/services/topic-reader.ts:22-26 | an absent, empty or "[]" value gives no elements; any other value, with its first and last characters dropped when it starts with "[", gives its comma-separated pieces trimmed, in order, with the empty ones removed; so every element is non-empty, trimmed and free of commas |
| TopicReader.BaseName | src/services/topic-reader.ts:66-67 | a trailing ".md" is removed and nothing else; a name without it is kept |
| TopicReader.StripNumberPrefix | src/services/topic-reader.ts:66 | a name that starts with one or more digits followed by a dash loses exactly those digits and that dash; any other name is kept whole |
| TopicReader.NumberedFileSlug | src/services/topic-reader.ts:66 | a file named `<digits>-<name>.md` gets the slug `<name>` |
| TopicReader.MakeTopic | src/services/topic-reader.ts:62-75 | slug, title, description, category and order are the frontmatter value when present and otherwise the defaults (slug: the file name without ".md" and number prefix; title: the file name without ".md"; "", "general", 0); tags and related files are the list parser applied to their values; the content is the trimmed body; the file path is the directory joined with the file name |
| TopicReader.DefaultsWithoutFrontmatter | src/services/topic-reader.ts:64-75 | a file without frontmatter takes every default: slug and title from the file name, empty description, order 0, category "general", no tags or related files, and its trimmed text as content |
| TopicReader.MdFiles | src/services/topic-reader.ts:58 | exactly the names ending in ".md" are kept, none added |
| TopicReader.SortNames | src/services/topic-reader.ts:58 | the names come back in ascending order as a permutation of the input |
| TopicReader.SortByOrder | src/services/topic-reader.ts:78 | topics come back ascending by `order`, as a permutation of the input |
| TopicReader.SortByOrderStable | src/services/topic-reader.ts:78 | topics sharing an order value keep their relative order through the sort |
| TopicReader.ReadAll | src/services/topic-reader.ts:51-83 | a missing topics directory gives nothing; otherwise there is one topic per ".md" file, the topics are non-decreasing by order, and each order group is in file-name order |
| TopicReader.ReadAllFromMdFiles | src/services/topic-reader.ts:57-74 | every topic returned was read from a ".md" file of the directory listing |
| TopicReader.FindSlug | src/services/topic-reader.ts:88 | the index found holds the slug and no earlier topic does; none is found exactly when no topic holds the slug |
| TopicReader.ReadOne | src/services/topic-reader.ts:85-95 | the result is the first topic in `readAll` order with the slug; the not-found error naming slug and project comes exactly when no topic has it |
| RegistryFetcher.Serialize | src/services/registry-fetcher.ts:74-78 | the written topic file opens with "---\n" and ends with "\n---\n" followed by the content unchanged |
| RegistryFetcher.RoundTrip | src/services/registry-fetcher.ts:74-78 | the topic reader parses a written file back to the record's key/value data (a later duplicate key winning) and its exact content, given keys without ": " or newlines and values without newlines |
| RegistryFetcher.ArrayRoundTrip | src/services/registry-fetcher.ts:75 | an array written as `[a, b, ...]` is read back element for element by the list parser when the elements are non-empty, trimmed and comma-free |
| RegistryFetcher.Fetched | src/services/registry-fetcher.ts:67-72 | the topics kept are exactly the listed ones whose fetch succeeded, and there are no more of them than listed |
| RegistryFetcher.FetchedCounts | src/services/registry-fetcher.ts:67-72 | a topic whose fetch succeeds is kept as many times as it is listed; any other topic is not kept |
| RegistryFetcher.FetchedInOrder | src/services/registry-fetcher.ts:67 | the kept topics are in list order |
| RegistryFetcher.FetchedAllOrNone | src/services/registry-fetcher.ts:67-72 | every fetch succeeding keeps the whole list; every fetch failing keeps none |
| RegistryFetcher.TopicWrites | src/services/registry-fetcher.ts:67-81 | one write per topic whose fetch succeeded, in list order, each the topic's record serialised under the topic's file name in the topics directory |
| RegistryFetcher.FetchFromRegistry | src/services/registry-fetcher.ts:23-88 | an installed project returns its name at once without writing; an unreachable config is the not-in-registry error and a reachable one succeeds exactly when it passes the schema check, the invalid-config error otherwise, both errors writing nothing; a successful install writes the config file (its JSON text plus a newline) first, then exactly the topic writes for the listed topics (none when the list request failed), and reports their number as downloaded |
| RegistryFetcher.InstalledTopicsReadBack | src/services/registry-fetcher.ts:67-79 | every write of an install after the config file goes to the project's topics directory under a listed topic's file name, and the frontmatter parser reads it back to that topic's fetched key/value data and content, when the fetched records are well formed |
| RegistryFetcher.TopicWriteReadBack | src/services/registry-fetcher.ts:72-79 | each topic file written names a listed topic whose fetch succeeded, lies under its file name, and parses back to its record |
| Search.FilterMatching | src/commands/search.ts:42-50 | a grimoire is kept exactly when its lowercased name, owner, repo or description contains the query; kept ones keep their multiplicity and their order |
| Search.SearchResults | src/commands/search.ts:29-50 | with no or an empty query the whole index is shown unchanged; otherwise exactly the index filtered by the lowercased query, in order |
| Search.SearchIgnoresQueryCase | src/commands/search.ts:29 | two queries that agree once lowercased show the same grimoires |
| Search.SearchUpperCaseQuery | src/commands/search.ts:29 | typing a query in upper case shows the same grimoires as typing it as is |
| Search.BadgeAsWrittenNeverShown | src/commands/search.ts:64-74 | as written, the badge looks up `owner/repo` among top-level names and so is never shown |
| Search.BadgeAsWrittenCounterexample | src/commands/search.ts:72-74 | after installing tim-smart/effect-atom the project exists, yet the badge as written is off |
| Search.BadgeMatchesInstall | src/services/registry-fetcher.ts:28-31 | the corrected badge is on after an install, and when it is on an install returns at once without writing |
| Search.Search | src/commands/search.ts:52-77 | as written: a non-empty query with no match gives the no-match message with the lowercased query; an empty index with no query gives the empty-registry message; otherwise one row per grimoire shown, in order, with its ref, description and topic count, badged exactly when `owner/repo` is among the listed project names |
| Search.SearchNeverShowsBadge | src/commands/search.ts:64-76 | as written, no row of the search view ever carries the installed badge |
| Search.SearchIntended | src/commands/search.ts:52-77 | the corrected view: the same messages and rows, badged exactly when the project `owner/repo` exists |
| Search.SearchDiffersInBadgeOnly | src/commands/search.ts:63-76 | the view as written and the corrected view give the same message or the same rows, apart from the badge |
| Search.SearchIntendedAfterInstall | src/commands/search.ts:71-76 | after a shown grimoire is installed, the corrected view lists it with the badge |
| Conjure.ResolveName | src/commands/conjure.ts:60-74 | a non-empty name argument wins; else a github repository without a path names the project; github with path, or no github, is the matching error; a resolved name is never empty |
| Conjure.NameResolvedIff | src/commands/conjure.ts:60-74 | a name is resolved exactly when one is given or github is given without a path |
| Conjure.ApplySourceFlags | src/commands/conjure.ts:102-110 | each non-empty flag overrides its field (github also sets source type "github"; path without github sets "path") and every other field is kept |
| Conjure.ApplySourceFlagsIdempotent | src/commands/conjure.ts:103-110 | applying the same flags a second time changes nothing |
| Conjure.ApplyNoFlags | src/commands/conjure.ts:103 | with no non-empty flag the configuration is left unchanged |
| Conjure.RunConjure | src/commands/conjure.ts:60-123 | a name error stops with no writes; otherwise the config is written once when created and once more when any flag is given, the last write is the working config, and the run stops with no source exactly when neither the flag nor the stored value gives a github repository or path |
| Conjure.NewProjectWritesAgree | src/commands/conjure.ts:80-112 | for a new project every write is the same config, carrying the resolved name, the description, the default topics directory and the github flag when given |
| Conjure.StoredGithubSuffices | src/commands/conjure.ts:114-121 | an existing project with a stored github repository always resolves a source when github is not given as "" |
| ProjectConfigs.NewConfig | src/schemas/project-config.ts:3-12 | a new config has the given name and description, the topics directory "topics" and every optional field absent |
| ProjectConfigs.DescriptionFlag | src/commands/init.ts:46-50 | the description is the flag's value when given and "A codebase navigation project" otherwise |
| ProjectConfigs.SchemaRoundTrip | src/schemas/project-config.ts:3-12 | a config stored through the schema keeps every declared field and loses `source` |
| GrimoireHome.MakeDirs | src/services/registry-fetcher.ts:49-51 | creating a directory recursively creates it and every directory on its path, keeps what was there, and creates nothing else |
| GrimoireHome.InstallCreatesProject | src/services/registry-fetcher.ts:49-51 | creating a project's topics directory makes the project exist |
| GrimoireHome.ListProjects | src/services/grimoire-home.ts:31-48 | every listed name is an existing project directory at the top of the projects directory, holding no "/"; every such directory is listed |
| GrimoireHome.NestedInstallListing | src/services/grimoire-home.ts:27-43 | after creating the topics directory of `owner/repo`, that project exists and `owner` is listed, but `owner/repo` is not |
| Paths.IsUrl | src/commands/init.ts:15-16 | a target is a URL exactly when it starts with "https://", "http://" or "git@"; such a target never starts with "/" |
| Paths.ResolveLocalPath | src/commands/analyze.ts:53-55 | a target starting with "/" is kept, any other is placed under the working directory; the result ends with the target and is absolute when the working directory is |
| Paths.ResolveIdempotent | src/commands/init.ts:116-118 | resolving an already resolved path again, from any directory, changes nothing |
| Paths.UrlIsNotAbsolute | src/commands/init.ts:107-119 | no URL is taken for an absolute local path |
| Init.TargetCodebase | src/commands/init.ts:103-119 | a URL target is cloned as given; any other target is the local directory resolved against the working directory |
| Init.RunInit | src/commands/init.ts:46-119 | an existing project stops with no write; otherwise the config handed to the store is a new config with the name and the description flag (its default when not given), every other optional field absent, and the target as source exactly when the target is non-empty; no target ends after creation, a target leads to its codebase |
| Analyze.AnalyzeTarget | src/commands/analyze.ts:35-55 | a missing project is an error; the target is the flag, or the stored source when the flag is absent; an empty result is the no-target error; a non-empty one always succeeds, with the path resolved against the working directory |
| Analyze.TargetFlagWins | src/commands/analyze.ts:47 | a non-empty target flag is used over the stored source |
| Analyze.EmptyTargetFlagShadowsSource | src/commands/analyze.ts:47-51 | a target flag given as "" hides the stored source and yields the no-target error |
| Analyze.AnalyzeAfterInit | src/commands/analyze.ts:46-55 | with a store that keeps `source`, analyze after init with a local target and no flag analyses the directory init would have |
| Analyze.AnalyzeAfterInitAsWritten | src/commands/init.ts:80-84 | init records the target as `source`, but after the schema store analyze without a flag finds no target |
| Analyze.AnalyzeAfterUrlInit | src/commands/analyze.ts:47-55 | when init is given a URL, which it clones, analyze reading that source without a flag resolves it as a path under the working directory |
| Analyze.AnalyzeAfterBareInit | src/commands/analyze.ts:46-51 | after init without a target, analyze without a flag stops with the no-target error |
| Incant.Bullet | src/commands/incant.ts:46-48 | a bullet is the bold slug alone when the description is empty; otherwise the bold slug directly followed by the separator and the description, with nothing in between |
| Incant.HeadLines | src/commands/incant.ts:32-36 | the title line, followed by a blank line and the description only when the description is non-empty |
| Incant.TopicSection | src/commands/incant.ts:42-50 | the topics section is absent exactly when there are no topics; otherwise a blank line, the heading, a blank line, then one bullet per topic in order |
| Incant.IncantLinesLayout | src/commands/incant.ts:31-52 | every line's position: title, optional description block, the blank and three usage lines naming the project, optional topics heading, one bullet per topic, final empty line |
| Incant.Incant | src/commands/incant.ts:22-53 | a missing project is the not-found error and an existing one always gives the text; the text is the lines joined by newlines and ends with a newline |
| Incant.IncantTextLines | src/commands/incant.ts:52-53 | splitting the printed text at newlines gives back the lines it was built from, when no name, description or slug holds a newline |

## Left out

- The interactive search prompt (key handling, rendering, scroll window) is not part of this model.
- Effects are parameters or left out: file system calls, HTTP requests, `git clone`, console output, temporary directories and their cleanup.
- The analysis pipeline after source resolution is left out: agent prompt generation, the OpenRouter API mode, topic writing and `--mode` handling.
- CLI argument wiring is left out: `cli.ts`, and option parsing beyond the values the handlers receive.
- The add, list, show and remove commands are left out; they only call into the services modelled here.
- Schema decoding and encoding are parameters. `configValid` stands for the registry config's schema check, and `configJson` for its JSON rendering. A failed read of an existing project's config is not modelled: `lookup` and `config` always answer.
- Non-string frontmatter values other than arrays, such as numbers and booleans, reach the writer already rendered by string interpolation (`Text`).
- The key order of `Object.entries`, and the special `__proto__` key of a plain object, are not modelled. Entries are a sequence and the data a map.
- `Number(...)` on the `order` value is the caller-supplied `orderOf`; NaN and its effect on the sort comparator are not modelled.
- `Strings.Lower`: lower-cases ASCII letters only, while `toLowerCase` covers all of Unicode.
- Strings are sequences of code points, while JavaScript indexes strings by UTF-16 code units. The two differ only for characters outside the Basic Multilingual Plane. Lengths, `indexOf` positions and slices in the model count code points.
- `TopicReader.SortNames`: compares by code point, while JavaScript's default sort compares UTF-16 code units.
- `TopicReader.ParseArray`: removes a whole last character where `slice(1, -1)` removes one code unit. For `[a, b😀` the source keeps a lone high surrogate after `b`, and the model gives `a` and `b`.
- `GrimoireHome.ListProjects`: returns a set. The sort `listProjects` applies is irrelevant to the badge, which only tests membership.
- `Incant.Bullet`: the separator is kept as the three characters the source file holds (`â€”`, an em dash decoded in the wrong encoding), exactly as printed.
- `RegistryFetcher.RoundTrip`: proved only for keys without ": " or newlines and values without newlines. Other records do not survive the writer, and the source does not promise they do.
- `RegistryFetcher.ArrayRoundTrip`: proved only for non-empty, trimmed, comma-free elements. Other arrays are changed by the writer and reader, and the source does not promise otherwise.
- `ProjectConfig` carries a `source` field that the schema does not declare. init sets it and analyze reads it. `ProjectConfigs.SchemaRoundTrip` says what the store does with it.

- `TopicReader.ReadAll`: the directory listing and file contents always answer. A failed listing or file read, which the source turns into a topic-reader error (src/services/topic-reader.ts:79-83) that `readOne` and incant pass on, is not modelled.
- `Search.Search`: the registry index is a parameter that always answers. The error the source raises when that request fails (src/commands/search.ts:31-38) is not modelled.
- `GrimoireHome.ListProjects`: every path in the set stands for a directory; plain files in the projects directory, which the listing skips, are not modelled.

## Findings

| source | as written | input that shows it | evidently intended | confidence | as-written member | corrected member |
|---|---|---|---|---|---|---|
| src/commands/search.ts:72-74 | the badge looks up `owner/repo` in the list of project names; `listProjects` lists only top-level directory entries, which never contain "/", while an install creates `owner/repo` as nested directories | install `tim-smart/effect-atom`, then search: the project exists but no badge is shown | the badge is shown when the project `owner/repo` exists, the check install itself uses | high; not executed | Search.Search, Search.SearchNeverShowsBadge, Search.BadgeAsWrittenCounterexample, GrimoireHome.NestedInstallListing | Search.SearchIntended, Search.SearchIntendedAfterInstall, Search.BadgeMatchesInstall |
| src/commands/init.ts:80-84 | init stores the target under `source`, a field the `ProjectConfig` schema does not declare, so it is dropped when the config is built and stored; analyze then reads `config.source` from the stored config | `grimoire init p --target ./code`, then `grimoire analyze p`: no target is found | the stored config keeps `source`, so analyze without `--target` analyses what init recorded | medium (depends on the schema library dropping undeclared fields); not executed | Analyze.AnalyzeAfterInitAsWritten, ProjectConfigs.SchemaRoundTrip | Analyze.AnalyzeAfterInit |

=== FILE: analyze.dfy ===
/** The analyze command up to the codebase path it analyses: the project
    must exist, and the target is the `--target` flag or else the source
    stored by init. */
module Analyze {
  import opened Results
  import opened Paths
  import opened ProjectConfigs
  import Init

  datatype AnalyzeError = ProjectNotFound(project: string) | NoTarget

  /** `config` is the stored configuration, None when the project does not
      exist. The result is the codebase path. */
  function AnalyzeTarget(project: string, config: Option<ProjectConfig>, target: Option<string>, cwd: string): (r: Result<string, AnalyzeError>)
    ensures config.None? ==> r == Err(ProjectNotFound(project))
    ensures r == Err(NoTarget) <==> config.Some? && !Truthy(Coalesce(target, config.value.source))
    ensures config.Some? && Truthy(Coalesce(target, config.value.source)) ==> r.Ok?
    ensures r.Ok? ==> r.value == ResolveLocalPath(Coalesce(target, config.value.source).value, cwd)
  {
    if config.None? then Err(ProjectNotFound(project))
    else
      var raw := Coalesce(target, config.value.source);
      if !Truthy(raw) then Err(NoTarget)
      else Ok(ResolveLocalPath(raw.value, cwd))
  }

  /** A given flag wins over the stored source. */
  lemma TargetFlagWins(project: string, config: ProjectConfig, target: string, cwd: string)
    requires target != ""
    ensures AnalyzeTarget(project, Some(config), Some(target), cwd) == Ok(ResolveLocalPath(target, cwd))
  {
  }

  /** A flag given as "" is not replaced by the stored source: `??` only
      falls through on an absent flag, and "" is then rejected as no target. */
  lemma EmptyTargetFlagShadowsSource(project: string, config: ProjectConfig, cwd: string)
    ensures AnalyzeTarget(project, Some(config), Some(""), cwd) == Err(NoTarget)
  {
  }

  /** Analysing a project right after init, without a flag, analyses the
      local directory init would have analysed, from the same working
      directory, when the stored configuration keeps `source` (a schema
      that declares the field). */
  lemma AnalyzeAfterInit(name: string, target: Option<string>, descriptionFlag: Option<string>, cwd: string)
    requires Truthy(target) && !IsUrl(target.value)
    ensures var init := Init.RunInit(name, target, descriptionFlag, false, cwd);
            && init.result == Ok(Init.AnalyzeCodebase(Init.LocalDir(ResolveLocalPath(target.value, cwd))))
            && AnalyzeTarget(name, init.written, None, cwd) == Ok(ResolveLocalPath(target.value, cwd))
  {
  }

  /** A URL target, which init clones, is once stored as the source taken
      by analyze for a local path under the working directory: analyze has
      no URL case. */
  lemma AnalyzeAfterUrlInit(name: string, target: Option<string>, descriptionFlag: Option<string>, cwd: string)
    requires Truthy(target) && IsUrl(target.value)
    ensures var init := Init.RunInit(name, target, descriptionFlag, false, cwd);
            && init.result == Ok(Init.AnalyzeCodebase(Init.Clone(target.value)))
            && AnalyzeTarget(name, init.written, None, cwd) == Ok(cwd + "/" + target.value)
  {
    UrlIsNotAbsolute(target.value);
  }

  /** The same sequence with the configuration stored through the schema
      as written: init records the target as `source`, the store drops it,
      and analyze without a flag stops with no target. */
  lemma AnalyzeAfterInitAsWritten(name: string, target: Option<string>, descriptionFlag: Option<string>, cwd: string)
    requires Truthy(target)
    ensures var init := Init.RunInit(name, target, descriptionFlag, false, cwd);
            && init.written.Some? && init.written.value.source == target
            && AnalyzeTarget(name, Some(SchemaRoundTrip(init.written.value)), None, cwd) == Err(NoTarget)
  {
  }

  /** Analysing a project created without a target and without a flag
      stops with no target. */
  lemma AnalyzeAfterBareInit(name: string, descriptionFlag: Option<string>, cwd: string)
    ensures AnalyzeTarget(name, Init.RunInit(name, None, descriptionFlag, false, cwd).written, None, cwd) == Err(NoTarget)
  {
  }
}

=== FILE: conjure.dfy ===
/** The decisions of the conjure command before analysis starts: which
    project name to use, the configuration it creates or updates from the
    `--github`, `--path` and `--hint` flags, and the source it goes on to
    analyse. The flags are `Option`s: absent, or given (possibly as ""). */
module Conjure {
  import opened Results
  import opened ProjectConfigs

  datatype NameError =
    | NameRequiredWithPath(github: string, path: string)
    | NameRequired

  /** The project name: the name argument when truthy, else the github
      `owner/repo` when there is no path; otherwise an error. */
  function ResolveName(nameArg: Option<string>, github: Option<string>, path: Option<string>): (r: Result<string, NameError>)
    ensures Truthy(nameArg) ==> r == Ok(nameArg.value)
    ensures !Truthy(nameArg) && Truthy(github) && !Truthy(path) ==> r == Ok(github.value)
    ensures !Truthy(nameArg) && Truthy(github) && Truthy(path) ==> r == Err(NameRequiredWithPath(github.value, path.value))
    ensures !Truthy(nameArg) && !Truthy(github) ==> r == Err(NameRequired)
    ensures r.Ok? ==> r.value != ""
  {
    if Truthy(nameArg) then Ok(nameArg.value)
    else if Truthy(github) && !Truthy(path) then Ok(github.value)
    else if Truthy(github) then Err(NameRequiredWithPath(github.value, path.value))
    else Err(NameRequired)
  }

  /** A name is found exactly when one is given, or a github repository is
      given without a path. */
  lemma NameResolvedIff(nameArg: Option<string>, github: Option<string>, path: Option<string>)
    ensures ResolveName(nameArg, github, path).Ok?
        <==> Truthy(nameArg) || (Truthy(github) && !Truthy(path))
  {
  }

  /** The configuration with the given flags spread over it: a truthy
      github sets `github` and source type "github", a truthy path sets
      `path`, and source type "path" when github is not truthy, a truthy
      hint sets `hint`. */
  function ApplySourceFlags(c: ProjectConfig, github: Option<string>, path: Option<string>, hint: Option<string>): (r: ProjectConfig)
    ensures r.name == c.name && r.description == c.description && r.version == c.version
    ensures r.topicsDir == c.topicsDir && r.source == c.source
    ensures Truthy(github) ==> r.github == github && r.sourceType == Some(GitHub)
    ensures !Truthy(github) ==> r.github == c.github
    ensures Truthy(path) ==> r.path == path
    ensures !Truthy(path) ==> r.path == c.path
    ensures !Truthy(github) && Truthy(path) ==> r.sourceType == Some(PathSource)
    ensures !Truthy(github) && !Truthy(path) ==> r.sourceType == c.sourceType
    ensures Truthy(hint) ==> r.hint == hint
    ensures !Truthy(hint) ==> r.hint == c.hint
  {
    var c1 := if Truthy(github) then c.(github := github, sourceType := Some(GitHub)) else c;
    var c2 := if Truthy(path) then c1.(path := path) else c1;
    var c3 := if !Truthy(github) && Truthy(path) then c2.(sourceType := Some(PathSource)) else c2;
    if Truthy(hint) then c3.(hint := hint) else c3
  }

  /** Spreading the same flags twice is spreading them once. */
  lemma ApplySourceFlagsIdempotent(c: ProjectConfig, github: Option<string>, path: Option<string>, hint: Option<string>)
    ensures ApplySourceFlags(ApplySourceFlags(c, github, path, hint), github, path, hint)
         == ApplySourceFlags(c, github, path, hint)
  {
  }

  /** Without a truthy flag the configuration is left as it is. */
  lemma ApplyNoFlags(c: ProjectConfig, github: Option<string>, path: Option<string>, hint: Option<string>)
    requires !Truthy(github) && !Truthy(path) && !Truthy(hint)
    ensures ApplySourceFlags(c, github, path, hint) == c
  {
  }

  /** What conjure goes on to analyse: the resolved github repository and
      local path (at least one truthy), the hint, for the named project. */
  datatype SourceRequest = SourceRequest(project: string, github: Option<string>, path: Option<string>, hint: Option<string>)

  datatype ConjureError =
    | NameMissing(reason: NameError)
    | NoSource(project: string)

  /** The configurations written, in order, and the outcome. */
  datatype ConjureOutcome = ConjureOutcome(writes: seq<ProjectConfig>, result: Result<SourceRequest, ConjureError>)

  predicate AnyFlag(github: Option<string>, path: Option<string>, hint: Option<string>) {
    Truthy(github) || Truthy(path) || Truthy(hint)
  }

  /** The configuration conjure works with once created or updated.
      `stored` gives the configuration of an existing project and None for
      a project that does not exist yet. */
  function WorkingConfig(name: string, stored: Option<ProjectConfig>, description: string,
                         github: Option<string>, path: Option<string>, hint: Option<string>): ProjectConfig
  {
    var base := if stored.Some? then stored.value else ApplySourceFlags(NewConfig(name, description), github, path, hint);
    if AnyFlag(github, path, hint) then ApplySourceFlags(base, github, path, hint) else base
  }

  /** The conjure command up to source resolution. `lookup` answers, for a
      project name, the stored configuration or None when the project does
      not exist; `description` is the description flag with its default. */
  function RunConjure(nameArg: Option<string>, github: Option<string>, path: Option<string>, hint: Option<string>,
                      description: string, lookup: string -> Option<ProjectConfig>): (r: ConjureOutcome)
    ensures ResolveName(nameArg, github, path).Err? ==>
              r == ConjureOutcome([], Err(NameMissing(ResolveName(nameArg, github, path).error)))
    ensures ResolveName(nameArg, github, path).Ok? ==>
              var name := ResolveName(nameArg, github, path).value;
              var config := WorkingConfig(name, lookup(name), description, github, path, hint);
              && |r.writes| == (if lookup(name).None? then 1 else 0) + (if AnyFlag(github, path, hint) then 1 else 0)
              && (r.writes != [] ==> r.writes[|r.writes| - 1] == config)
              && (r.result.Err? <==> !Truthy(Coalesce(github, config.github)) && !Truthy(Coalesce(path, config.path)))
              && (r.result.Err? ==> r.result.error == NoSource(name))
              && (r.result.Ok? ==> r.result.value == SourceRequest(name, Coalesce(github, config.github),
                                                                   Coalesce(path, config.path), Coalesce(hint, config.hint)))
  {
    match ResolveName(nameArg, github, path)
    case Err(e) => ConjureOutcome([], Err(NameMissing(e)))
    case Ok(name) =>
      var stored := lookup(name);
      var created := if stored.Some? then [] else [ApplySourceFlags(NewConfig(name, description), github, path, hint)];
      var config := WorkingConfig(name, stored, description, github, path, hint);
      var updated := if AnyFlag(github, path, hint) then [config] else [];
      var resolvedGithub := Coalesce(github, config.github);
      var resolvedPath := Coalesce(path, config.path);
      if !Truthy(resolvedGithub) && !Truthy(resolvedPath) then
        ConjureOutcome(created + updated, Err(NoSource(name)))
      else
        ConjureOutcome(created + updated, Ok(SourceRequest(name, resolvedGithub, resolvedPath, Coalesce(hint, config.hint))))
  }

  /** For a new project the update conjure writes after creating it repeats
      the created configuration, and that configuration carries the name and
      description given and the flags that were truthy. */
  lemma NewProjectWritesAgree(nameArg: Option<string>, github: Option<string>, path: Option<string>, hint: Option<string>,
                              description: string, lookup: string -> Option<ProjectConfig>)
    requires ResolveName(nameArg, github, path).Ok?
    requires lookup(ResolveName(nameArg, github, path).value).None?
    ensures var r := RunConjure(nameArg, github, path, hint, description, lookup);
            && r.writes != []
            && (forall i :: 0 <= i < |r.writes| ==> r.writes[i] == r.writes[0])
            && r.writes[0].name == ResolveName(nameArg, github, path).value
            && r.writes[0].description == description
            && r.writes[0].topicsDir == DefaultTopicsDir
            && r.writes[0].source.None?
            && (Truthy(github) ==> r.writes[0].github == github)
            && (!Truthy(github) ==> r.writes[0].github.None?)
  {
    var name := ResolveName(nameArg, github, path).value;
    var created := ApplySourceFlags(NewConfig(name, description), github, path, hint);
    ApplySourceFlagsIdempotent(NewConfig(name, description), github, path, hint);
    assert WorkingConfig(name, None, description, github, path, hint) == created;
  }

  /** An existing project with a stored github repository always has a
      source, whatever flags are given. */
  lemma StoredGithubSuffices(nameArg: Option<string>, github: Option<string>, path: Option<string>, hint: Option<string>,
                             description: string, lookup: string -> Option<ProjectConfig>)
    requires ResolveName(nameArg, github, path).Ok?
    requires var s := lookup(ResolveName(nameArg, github, path).value); s.Some? && Truthy(s.value.github)
    requires github.None? || Truthy(github)
    ensures RunConjure(nameArg, github, path, hint, description, lookup).result.Ok?
  {
  }
}

=== FILE: grimoire_home.dfy ===
/** The projects directory under the grimoire home, as the set of directory
    paths below it: project existence, the recursive directory creation an
    install performs, and the project listing. */
module GrimoireHome {

  /** Directory paths relative to the projects directory ("owner" and
      "owner/repo" for a project installed as owner/repo). */
  type Dirs = set<string>

  /** `makeDirectory(path, { recursive: true })`: the path and every
      directory on the way to it. */
  function MakeDirs(dirs: Dirs, path: string): (r: Dirs)
    ensures path in r && dirs <= r
    ensures forall i :: 0 <= i < |path| && path[i] == '/' ==> path[..i] in r
    ensures forall d :: d in r ==> d in dirs || d == path || exists i :: 0 <= i < |path| && path[i] == '/' && d == path[..i]
  {
    dirs + {path} + set i | 0 <= i < |path| && path[i] == '/' :: path[..i]
  }

  /** `projectExists`: the project's directory is there. */
  predicate ProjectExists(name: string, dirs: Dirs) {
    name in dirs
  }

  /** `listProjects`: the directory entries at the top of the projects
      directory. */
  function ListProjects(dirs: Dirs): (r: set<string>)
    ensures forall e :: e in r ==> e in dirs && ProjectExists(e, dirs)
    ensures forall e :: e in r ==> '/' !in e
    ensures forall e :: e in dirs && '/' !in e ==> e in r
  {
    set e | e in dirs && '/' !in e
  }

  /** The directory an install creates for a project: its topics
      directory, the project's own directory on the way. */
  function InstallDirs(dirs: Dirs, name: string): Dirs {
    MakeDirs(dirs, name + "/topics")
  }

  /** After an install the project exists. */
  lemma InstallCreatesProject(dirs: Dirs, name: string)
    ensures ProjectExists(name, InstallDirs(dirs, name))
  {
    var path := name + "/topics";
    assert path[|name|] == '/' && path[..|name|] == name;
  }

  /** Installing `owner/repo` adds `owner` to the listing and never
      `owner/repo`, although that project now exists. */
  lemma NestedInstallListing(dirs: Dirs, owner: string, repo: string)
    requires owner != "" && '/' !in owner
    ensures var after := InstallDirs(dirs, owner + "/" + repo);
            && ProjectExists(owner + "/" + repo, after)
            && owner in ListProjects(after)
            && owner + "/" + repo !in ListProjects(after)
  {
    InstallCreatesProject(dirs, owner + "/" + repo);
    var path := owner + "/" + repo + "/topics";
    assert path[|owner|] == '/' && path[..|owner|] == owner;
  }
}

=== FILE: incant.dfy ===
/** The incant command: the reference text that introduces a project's
    topics to an agent, assembled line by line from the configuration and
    the topics the topic reader returns. */
module Incant {
  import opened Results
  import opened Strings
  import opened ProjectConfigs
  import opened TopicReader

  /** The separator placed between a topic's slug and its description. The
      source file holds these three characters where an em dash was meant;
      they are kept as they are. */
  const DescSep: string := " \U{00E2}\U{20AC}\U{201D} "

  /** The sentence introducing the grimoire commands. It is split into
      pieces only so that `IntroWithoutNewline` can be proved. */
  const Intro: string := "This project has " + "documentation available " + "via grimoire."
  const TopicsHeading: string := "## Available Topics"

  function Header(name: string): string {
    "# " + name + " Reference"
  }

  const ShowPrefix: string := "Run `grimoire show "
  const ShowSuffix: string := " <topic>` to read a topic."
  const ListPrefix: string := "Run `grimoire list "
  const ListSuffix: string := "` to see all topics."

  function ShowHint(project: string): string {
    ShowPrefix + project + ShowSuffix
  }

  function ListHint(project: string): string {
    ListPrefix + project + ListSuffix
  }

  /** One bullet: the slug in bold, then the separator and the description
      when the description is non-empty. */
  function Bullet(t: TopicEntry): (b: string)
    ensures StartsWith(b, "- **" + t.slug + "**")
    ensures t.description == "" <==> b == "- **" + t.slug + "**"
    ensures t.description != "" ==> EndsWith(b, DescSep + t.description)
    ensures |b| == |"- **" + t.slug + "**"| + (if t.description != "" then |DescSep| + |t.description| else 0)
  {
    var head := "- **" + t.slug + "**";
    var b := if t.description != "" then head + DescSep + t.description else head;
    assert b[..|head|] == head;
    assert t.description != "" ==> b[|b| - |DescSep + t.description|..] == DescSep + t.description;
    b
  }

  function Bullets(topics: seq<TopicEntry>): (r: seq<string>)
    ensures |r| == |topics|
    ensures forall i :: 0 <= i < |topics| ==> r[i] == Bullet(topics[i])
  {
    if topics == [] then [] else [Bullet(topics[0])] + Bullets(topics[1..])
  }

  /** The title line, then a blank line and the description when the
      description is non-empty. */
  function HeadLines(config: ProjectConfig): (r: seq<string>)
    ensures |r| == if config.description != "" then 3 else 1
    ensures r[0] == Header(config.name)
    ensures config.description != "" ==> r[1] == "" && r[2] == config.description
  {
    [Header(config.name)] + if config.description != "" then ["", config.description] else []
  }

  function UsageLines(project: string): (r: seq<string>)
    ensures |r| == 4
  {
    ["", Intro, ShowHint(project), ListHint(project)]
  }

  /** The topics section: present only when there are topics, one bullet
      per topic in the order given. */
  function TopicSection(topics: seq<TopicEntry>): (r: seq<string>)
    ensures topics == [] <==> r == []
    ensures topics != [] ==> |r| == 3 + |topics| && r[0] == "" && r[1] == TopicsHeading && r[2] == ""
    ensures forall i :: 0 <= i < |topics| ==> r[3 + i] == Bullet(topics[i])
  {
    if topics != [] then ["", TopicsHeading, ""] + Bullets(topics) else []
  }

  /** The lines of the reference text, the last one empty. */
  function IncantLines(project: string, config: ProjectConfig, topics: seq<TopicEntry>): (r: seq<string>)
    ensures |r| == |HeadLines(config)| + 4 + |TopicSection(topics)| + 1
    ensures r[0] == Header(config.name) && r[|r| - 1] == ""
  {
    HeadLines(config) + UsageLines(project) + TopicSection(topics) + [""]
  }

  /** Where each line of the reference text sits: the title, the optional
      description block, the three usage lines naming the project, the
      optional topics heading and one bullet per topic, in order. */
  lemma IncantLinesLayout(project: string, config: ProjectConfig, topics: seq<TopicEntry>)
    ensures var r := IncantLines(project, config, topics);
            var d := if config.description != "" then 2 else 0;
            && |r| == 1 + d + 4 + (if topics != [] then 3 + |topics| else 0) + 1
            && (config.description != "" ==> r[1] == "" && r[2] == config.description)
            && r[d + 1] == "" && r[d + 2] == Intro && r[d + 3] == ShowHint(project) && r[d + 4] == ListHint(project)
            && (topics != [] ==> r[d + 5] == "" && r[d + 6] == TopicsHeading && r[d + 7] == "")
            && (forall i :: 0 <= i < |topics| ==> r[d + 8 + i] == Bullet(topics[i]))
  {
    var h, u, t := HeadLines(config), UsageLines(project), TopicSection(topics);
    var r := IncantLines(project, config, topics);
    assert r == h + u + t + [""];
    forall k | 0 <= k < |h|
      ensures r[k] == h[k]
    {
      IndexInFirstBlock(h, u, t, [""], k);
    }
    forall k | 0 <= k < 4
      ensures r[|h| + k] == u[k]
    {
      IndexInSecondBlock(h, u, t, [""], k);
    }
    forall k | 0 <= k < |t|
      ensures r[|h| + 4 + k] == t[k]
    {
      IndexInThirdBlock(h, u, t, [""], k);
    }
  }

  lemma IndexInFirstBlock<T>(a: seq<T>, b: seq<T>, c: seq<T>, d: seq<T>, i: int)
    requires 0 <= i < |a|
    ensures (a + b + c + d)[i] == a[i]
  {
  }

  lemma IndexInSecondBlock<T>(a: seq<T>, b: seq<T>, c: seq<T>, d: seq<T>, i: int)
    requires 0 <= i < |b|
    ensures (a + b + c + d)[|a| + i] == b[i]
  {
  }

  lemma IndexInThirdBlock<T>(a: seq<T>, b: seq<T>, c: seq<T>, d: seq<T>, i: int)
    requires 0 <= i < |c|
    ensures (a + b + c + d)[|a| + |b| + i] == c[i]
  {
  }

  datatype IncantError = IncantProjectNotFound(project: string)

  /** `config` is the stored configuration, None when the project does not
      exist; `topics` is what the topic reader returns for the project. */
  function Incant(project: string, config: Option<ProjectConfig>, topics: seq<TopicEntry>): (r: Result<string, IncantError>)
    ensures config.None? <==> r == Err(IncantProjectNotFound(project))
    ensures config.Some? ==> r.Ok?
    ensures r.Ok? ==> r.value == Join(IncantLines(project, config.value, topics), "\n")
    ensures r.Ok? ==> EndsWith(r.value, "\n")
  {
    if config.None? then Err(IncantProjectNotFound(project))
    else
      var lines := IncantLines(project, config.value, topics);
      JoinEndsWithEmpty(lines);
      Ok(Join(lines, "\n"))
  }

  /** Joining lines whose last one is empty ends with the separator. */
  lemma {:induction false} JoinEndsWithEmpty(lines: seq<string>)
    requires |lines| >= 2 && lines[|lines| - 1] == ""
    ensures EndsWith(Join(lines, "\n"), "\n")
    decreases |lines|
  {
    if |lines| == 2 {
      assert Join(lines, "\n") == lines[0] + "\n" + "";
    } else {
      JoinEndsWithEmpty(lines[1..]);
    }
  }

  predicate NoNewlines(lines: seq<string>) {
    forall i :: 0 <= i < |lines| ==> '\n' !in lines[i]
  }

  lemma NoNewlinesAppend(a: seq<string>, b: seq<string>)
    requires NoNewlines(a) && NoNewlines(b)
    ensures NoNewlines(a + b)
  {
    forall i | 0 <= i < |a + b|
      ensures '\n' !in (a + b)[i]
    {
      if i >= |a| {
        assert (a + b)[i] == b[i - |a|];
      }
    }
  }

  lemma DescSepWithoutNewline()
    ensures '\n' !in DescSep
  {
  }

  lemma BulletWithoutNewline(t: TopicEntry)
    requires '\n' !in t.slug && '\n' !in t.description
    ensures '\n' !in Bullet(t)
  {
    DescSepWithoutNewline();
    if t.description != "" {
      assert Bullet(t) == "- **" + t.slug + "**" + DescSep + t.description;
    } else {
      assert Bullet(t) == "- **" + t.slug + "**";
    }
  }

  lemma BulletsWithoutNewline(topics: seq<TopicEntry>)
    requires forall i :: 0 <= i < |topics| ==> '\n' !in topics[i].slug && '\n' !in topics[i].description
    ensures NoNewlines(Bullets(topics))
  {
    forall i | 0 <= i < |topics|
      ensures '\n' !in Bullets(topics)[i]
    {
      BulletWithoutNewline(topics[i]);
    }
  }

  lemma IntroWithoutNewline()
    ensures '\n' !in Intro
  {
  }

  lemma ShowPiecesWithoutNewline()
    ensures '\n' !in ShowPrefix && '\n' !in ShowSuffix
  {
  }

  lemma ListPiecesWithoutNewline()
    ensures '\n' !in ListPrefix && '\n' !in ListSuffix
  {
  }

  lemma ShowHintWithoutNewline(project: string)
    requires '\n' !in project
    ensures '\n' !in ShowHint(project)
  {
    ShowPiecesWithoutNewline();
  }

  lemma ListHintWithoutNewline(project: string)
    requires '\n' !in project
    ensures '\n' !in ListHint(project)
  {
    ListPiecesWithoutNewline();
  }

  lemma UsageWithoutNewline(project: string)
    requires '\n' !in project
    ensures NoNewlines(UsageLines(project))
  {
    IntroWithoutNewline();
    ShowHintWithoutNewline(project);
    ListHintWithoutNewline(project);
  }

  lemma HeadWithoutNewline(config: ProjectConfig)
    requires '\n' !in config.name && '\n' !in config.description
    ensures NoNewlines(HeadLines(config))
  {
    assert '\n' !in Header(config.name);
  }

  lemma HeadingLinesWithoutNewline()
    ensures NoNewlines(["", TopicsHeading, ""])
  {
  }

  lemma TopicBlockWithoutNewline(topics: seq<TopicEntry>)
    requires forall i :: 0 <= i < |topics| ==> '\n' !in topics[i].slug && '\n' !in topics[i].description
    ensures NoNewlines(TopicSection(topics))
  {
    HeadingLinesWithoutNewline();
    BulletsWithoutNewline(topics);
    NoNewlinesAppend(["", TopicsHeading, ""], Bullets(topics));
  }

  /** Reading the text back line by line gives the lines it was built
      from, when no name, description or slug holds a newline. */
  lemma IncantTextLines(project: string, config: ProjectConfig, topics: seq<TopicEntry>)
    requires '\n' !in project && '\n' !in config.name && '\n' !in config.description
    requires forall i :: 0 <= i < |topics| ==> '\n' !in topics[i].slug && '\n' !in topics[i].description
    ensures Split(Join(IncantLines(project, config, topics), "\n"), '\n') == IncantLines(project, config, topics)
  {
    var head := HeadLines(config);
    var usage := UsageLines(project);
    var topicBlock := TopicSection(topics);
    HeadWithoutNewline(config);
    UsageWithoutNewline(project);
    TopicBlockWithoutNewline(topics);
    NoNewlinesAppend(head, usage);
    NoNewlinesAppend(head + usage, topicBlock);
    NoNewlinesAppend(head + usage + topicBlock, [""]);
    assert IncantLines(project, config, topics) == head + usage + topicBlock + [""];
    SplitJoin(IncantLines(project, config, topics), '\n');
  }
}

=== FILE: init.dfy ===
/** The init command: create a project, record the target as its source,
    and decide where the codebase to analyse comes from. Whether the
    project exists and the working directory are parameters; cloning and
    analysis are left to the caller. */
module Init {
  import opened Results
  import opened Paths
  import opened ProjectConfigs

  /** The codebase init goes on to analyse: a repository to clone, or a
      local directory. */
  datatype Codebase = Clone(url: string) | LocalDir(path: string)

  datatype InitResult = CreatedOnly | AnalyzeCodebase(codebase: Codebase)

  datatype InitError = AlreadyExists(project: string)

  /** The configuration written, if any, and what happens next. */
  datatype InitOutcome = InitOutcome(written: Option<ProjectConfig>, result: Result<InitResult, InitError>)

  /** Where a truthy target leads: a URL is cloned, anything else is a
      local path resolved against `cwd`. */
  function TargetCodebase(target: string, cwd: string): (c: Codebase)
    ensures c.Clone? <==> IsUrl(target)
    ensures c.Clone? ==> c.url == target
    ensures c.LocalDir? ==> c.path == ResolveLocalPath(target, cwd)
  {
    if IsUrl(target) then Clone(target) else LocalDir(ResolveLocalPath(target, cwd))
  }

  /** `descriptionFlag` is the `--description` option, None when it is not
      given. */
  function RunInit(name: string, target: Option<string>, descriptionFlag: Option<string>, projectExists: bool, cwd: string): (r: InitOutcome)
    ensures projectExists ==> r == InitOutcome(None, Err(AlreadyExists(name)))
    ensures !projectExists ==> r.written.Some? && r.result.Ok?
    ensures r.written.Some? ==>
              && r.written.value.name == name
              && r.written.value.description == DescriptionFlag(descriptionFlag)
              && r.written.value.topicsDir == DefaultTopicsDir
              && (r.written.value.source.Some? <==> Truthy(target))
              && (r.written.value.source.Some? ==> r.written.value.source == target)
    ensures r.written.Some? ==>
              r.written.value == NewConfig(name, DescriptionFlag(descriptionFlag)).(source := r.written.value.source)
    ensures !projectExists && !Truthy(target) ==> r.result == Ok(CreatedOnly)
    ensures !projectExists && Truthy(target) ==> r.result == Ok(AnalyzeCodebase(TargetCodebase(target.value, cwd)))
  {
    if projectExists then InitOutcome(None, Err(AlreadyExists(name)))
    else
      var base := NewConfig(name, DescriptionFlag(descriptionFlag));
      var config := if Truthy(target) then base.(source := target) else base;
      if !Truthy(target) then InitOutcome(Some(config), Ok(CreatedOnly))
      else InitOutcome(Some(config), Ok(AnalyzeCodebase(TargetCodebase(target.value, cwd))))
  }
}

=== FILE: paths.dfy ===
/** Turning a user-supplied target into a codebase location, shared by the
    init and analyze commands: URL detection and the absolute/relative path
    rule. The working directory is a parameter. */
module Paths {
  import opened Strings

  const Https: string := "https://"
  const Http: string := "http://"
  const GitSsh: string := "git@"

  /** `isUrl`: the target names a remote repository to clone. */
  function IsUrl(s: string): (r: bool)
    ensures r <==> StartsWith(s, Https) || StartsWith(s, Http) || StartsWith(s, GitSsh)
    ensures r ==> |s| >= 4 && s[0] != '/'
  {
    if StartsWith(s, Https) then assert s[0] == Https[0]; true
    else if StartsWith(s, Http) then assert s[0] == Http[0]; true
    else if StartsWith(s, GitSsh) then assert s[0] == GitSsh[0]; true
    else false
  }

  predicate Absolute(p: string) {
    StartsWith(p, "/")
  }

  /** A target starting with "/" is kept; any other is taken relative to
      the working directory `cwd`. */
  function ResolveLocalPath(target: string, cwd: string): (r: string)
    ensures Absolute(target) ==> r == target
    ensures !Absolute(target) ==> r == cwd + "/" + target
    ensures EndsWith(r, target)
    ensures Absolute(cwd) ==> Absolute(r)
  {
    var r := if Absolute(target) then target else cwd + "/" + target;
    assert r[|r| - |target|..] == target;
    assert Absolute(cwd) ==> r[..1] == cwd[..1];
    r
  }

  /** Resolving a resolved path again, from any directory, changes nothing
      when the first working directory was absolute. */
  lemma ResolveIdempotent(target: string, cwd: string, cwd': string)
    requires Absolute(cwd)
    ensures ResolveLocalPath(ResolveLocalPath(target, cwd), cwd') == ResolveLocalPath(target, cwd)
  {
  }

  /** No URL counts as an absolute local path, so the two rules never
      compete for the same target. */
  lemma UrlIsNotAbsolute(s: string)
    requires IsUrl(s)
    ensures !Absolute(s)
  {
  }
}

=== FILE: project_config.dfy ===
/** The per-project configuration record stored as `grimoire.json`, and the
    defaults the commands fill in. */
module ProjectConfigs {
  import opened Results

  datatype SourceType = GitHub | PathSource

  /** The stored configuration. `topicsDir` falls back to "topics";
      `source` is the codebase target the init command records. */
  datatype ProjectConfig = ProjectConfig(
    name: string,
    description: string,
    version: Option<string>,
    github: Option<string>,
    path: Option<string>,
    sourceType: Option<SourceType>,
    topicsDir: string,
    hint: Option<string>,
    source: Option<string>)

  const DefaultTopicsDir: string := "topics"

  /** The `--description` value when the flag is not given. */
  const DefaultDescription: string := "A codebase navigation project"

  /** A configuration built from a name and a description alone, every
      optional field absent and the topics directory at its default. */
  function NewConfig(name: string, description: string): (c: ProjectConfig)
    ensures c.name == name && c.description == description
    ensures c.topicsDir == DefaultTopicsDir
    ensures c.version.None? && c.github.None? && c.path.None? && c.sourceType.None?
    ensures c.hint.None? && c.source.None?
  {
    ProjectConfig(name, description, None, None, None, None, DefaultTopicsDir, None, None)
  }

  /** What a configuration becomes once it passes through the schema as
      written (construction, encoding to `grimoire.json`, decoding back):
      every declared field survives and the undeclared `source` is dropped. */
  function SchemaRoundTrip(c: ProjectConfig): (s: ProjectConfig)
    ensures s.source.None?
    ensures s.(source := c.source) == c
  {
    ProjectConfig(c.name, c.description, c.version, c.github, c.path, c.sourceType, c.topicsDir, c.hint, None)
  }

  /** The description flag with its default applied. */
  function DescriptionFlag(flag: Option<string>): (d: string)
    ensures flag.Some? ==> d == flag.value
    ensures flag.None? ==> d == DefaultDescription
  {
    if flag.Some? then flag.value else DefaultDescription
  }
}

=== FILE: registry_fetcher.dfy ===
/** Installing a grimoire from the registry: the frontmatter writer that turns
    a fetched `{frontmatter, content}` record into a topic file, the proof
    that the topic reader parses such a file back, and the sequence of file
    writes an install performs. HTTP responses are parameters. */
module RegistryFetcher {
  import opened Results
  import opened Strings
  import opened TopicReader
  import opened Sequences

  /** A frontmatter value as fetched: an array, or anything else already
      rendered by `${val}`. */
  datatype FrontValue = Text(text: string) | List(items: seq<string>)

  type Entry = (string, FrontValue)

  const ListSep: string := ", "

  /** `[v1, v2, ...]` for an array, the text itself otherwise. */
  function RenderValue(v: FrontValue): string
  {
    match v
    case Text(t) => t
    case List(items) => "[" + Join(items, ListSep) + "]"
  }

  /** One `key: val` line. */
  function RenderEntry(e: Entry): string
  {
    e.0 + KeySep + RenderValue(e.1)
  }

  function RenderLines(entries: seq<Entry>): (r: seq<string>)
    ensures |r| == |entries|
    ensures forall i :: 0 <= i < |entries| ==> r[i] == RenderEntry(entries[i])
  {
    if entries == [] then [] else [RenderEntry(entries[0])] + RenderLines(entries[1..])
  }

  /** The topic file written for a fetched record: "---\n", the entry lines
      joined by "\n", "\n---\n", then the content unchanged. */
  function Serialize(entries: seq<Entry>, content: string): (doc: string)
    ensures StartsWith(doc, Open)
    ensures EndsWith(doc, Close + content)
  {
    var doc := Open + Join(RenderLines(entries), "\n") + Close + content;
    assert doc[..|Open|] == Open;
    assert doc[|doc| - |Close + content|..] == Close + content;
    doc
  }

  /** The key/value data the entries describe, a later key overriding an
      earlier one, as a record would be read back. */
  function EntriesMapFrom(m: map<string, string>, entries: seq<Entry>): map<string, string>
    decreases |entries|
  {
    if entries == [] then m
    else EntriesMapFrom(m[entries[0].0 := RenderValue(entries[0].1)], entries[1..])
  }

  function EntriesMap(entries: seq<Entry>): map<string, string>
  {
    EntriesMapFrom(map[], entries)
  }

  predicate NoNewline(s: string) {
    '\n' !in s
  }

  predicate ValueWithoutNewline(v: FrontValue) {
    match v
    case Text(t) => NoNewline(t)
    case List(items) => forall i :: 0 <= i < |items| ==> NoNewline(items[i])
  }

  /** The entries the writer can emit so that the reader sees them again:
      keys without ": " or a newline, values without a newline. */
  predicate WellFormed(entries: seq<Entry>) {
    forall i :: 0 <= i < |entries| ==>
      && NoNewline(entries[i].0)
      && !Contains(entries[i].0, KeySep)
      && ValueWithoutNewline(entries[i].1)
  }

  lemma {:induction false} JoinWithoutChar(parts: seq<string>, sep: string, c: char)
    requires c !in sep
    requires forall i :: 0 <= i < |parts| ==> c !in parts[i]
    ensures c !in Join(parts, sep)
    decreases |parts|
  {
    if |parts| > 1 {
      JoinWithoutChar(parts[1..], sep, c);
    }
  }

  lemma RenderValueWithoutNewline(v: FrontValue)
    requires ValueWithoutNewline(v)
    ensures NoNewline(RenderValue(v))
  {
    if v.List? {
      JoinWithoutChar(v.items, ListSep, '\n');
    }
  }

  /** A rendered line splits back at the separator that was put in. */
  lemma SplitRenderedLine(k: string, val: string)
    requires !Contains(k, KeySep)
    ensures SplitLine(k + KeySep + val) == Some((k, val))
  {
    ContainsIff(k, KeySep);
    var line := k + KeySep + val;
    assert MatchAt(line, KeySep, |k|) by {
      assert line[|k|..|k| + 2] == KeySep;
    }
    forall i | 0 <= i < |k|
      ensures !MatchAt(line, KeySep, i)
    {
      if i + 2 <= |k| {
        assert line[i..i + 2] == k[i..i + 2];
        assert !MatchAt(k, KeySep, i);
      } else {
        assert line[i + 1] == ':';
        assert line[i..i + 2][1] == line[i + 1];
      }
    }
    assert IndexFrom(line, KeySep, 0) == |k|;
    assert line[..|k|] == k;
    assert line[|k| + 2..] == val;
  }

  lemma {:induction false} ParseRenderedLines(m: map<string, string>, entries: seq<Entry>)
    requires WellFormed(entries)
    ensures ParseLines(m, RenderLines(entries)) == EntriesMapFrom(m, entries)
    decreases |entries|
  {
    if entries != [] {
      var lines := RenderLines(entries);
      SplitRenderedLine(entries[0].0, RenderValue(entries[0].1));
      assert lines[1..] == RenderLines(entries[1..]);
      assert WellFormed(entries[1..]) by {
        forall i | 0 <= i < |entries[1..]|
          ensures entries[1..][i] == entries[i + 1]
        {
        }
      }
      ParseRenderedLines(m[entries[0].0 := RenderValue(entries[0].1)], entries[1..]);
    }
  }

  /** A line that may sit between the delimiters without closing them early. */
  predicate SafeLine(l: string) {
    NoNewline(l) && l != "---"
  }

  /** A newline followed by a safe line and another newline is not "\n---\n". */
  lemma NoFalseClose(l: string, rest: string)
    requires SafeLine(l)
    ensures !MatchAt("\n" + l + "\n" + rest, Close, 0)
  {
    var y := "\n" + l + "\n" + rest;
    if |y| < 5 {
    } else if |l| >= 4 {
      assert y[4] == l[3];
      assert y[..5][4] == y[4];
    } else if |l| == 3 {
      assert y[1..4] == l;
      assert y[..5][1..4] == y[1..4];
    } else {
      assert y[1 + |l|] == '\n';
      assert y[..5][1 + |l|] == y[1 + |l|];
    }
  }

  /** The search passes over a line without a newline when what follows it
      does not start with the closing delimiter. */
  lemma PassLine(l0: string, nt: string)
    requires NoNewline(l0) && !MatchAt(nt, Close, 0)
    ensures IndexFrom(l0 + nt, Close, 0) == IndexFrom(l0 + nt, Close, |l0| + 1)
  {
    IndexFromSkip(l0, nt, Close, 0);
    MatchAtShift(l0, nt, Close, 0);
    IndexFromStep(l0 + nt, Close, |l0|);
  }

  /** The search passes over a line without a newline and the newline after
      it when the next line is safe. */
  lemma SkipLine(l0: string, l1: string, rest: string, tail: string)
    requires NoNewline(l0) && SafeLine(l1)
    requires tail == l1 + "\n" + rest
    ensures IndexFrom(l0 + "\n" + tail, Close, 0)
         == (if IndexFrom(tail, Close, 0) == -1 then -1 else |l0| + 1 + IndexFrom(tail, Close, 0))
  {
    var nt := "\n" + tail;
    assert nt == "\n" + l1 + "\n" + rest;
    NoFalseClose(l1, rest);
    PassLine(l0, nt);
    assert l0 + "\n" + tail == l0 + nt == (l0 + "\n") + tail;
    IndexFromShift(l0 + "\n", tail, Close, 0);
  }

  /** Searching a joined block of safe lines followed by "\n---\n" finds the
      closing delimiter right after the block. */
  lemma {:induction false} CloseAfterLines(lines: seq<string>, content: string)
    requires |lines| >= 1
    requires forall i :: 0 <= i < |lines| ==> SafeLine(lines[i])
    ensures IndexFrom(Join(lines, "\n") + Close + content, Close, 0) == |Join(lines, "\n")|
    decreases |lines|
  {
    if |lines| == 1 {
      CloseAfterOneLine(lines[0], content);
    } else {
      var tail := Join(lines[1..], "\n") + Close + content;
      var rest := NextLineShape(lines, content);
      assert Join(lines, "\n") + Close + content == lines[0] + "\n" + tail;
      SkipLine(lines[0], lines[1], rest, tail);
      CloseAfterLines(lines[1..], content);
    }
  }

  lemma CloseAfterOneLine(l0: string, content: string)
    requires NoNewline(l0)
    ensures IndexFrom(l0 + Close + content, Close, 0) == |l0|
  {
    var s := l0 + Close + content;
    assert s == l0 + (Close + content);
    IndexFromSkip(l0, Close + content, Close, 0);
    assert MatchAt(s, Close, |l0|) by {
      assert s[|l0|..|l0| + 5] == Close;
    }
  }

  /** After the first of several lines comes the second line, a newline and
      the rest of the document. */
  lemma NextLineShape(lines: seq<string>, content: string) returns (rest: string)
    requires |lines| >= 2
    ensures Join(lines[1..], "\n") + Close + content == lines[1] + "\n" + rest
  {
    var j' := Join(lines[1..], "\n");
    if |lines| == 2 {
      rest := "---\n" + content;
      assert j' == lines[1];
    } else {
      rest := Join(lines[2..], "\n") + Close + content;
      assert lines[1..][1..] == lines[2..];
      assert j' == lines[1] + "\n" + Join(lines[2..], "\n");
    }
  }

  /** Every line the writer emits for well-formed entries is safe. */
  lemma RenderedLinesSafe(entries: seq<Entry>)
    requires WellFormed(entries)
    ensures forall i :: 0 <= i < |entries| ==> SafeLine(RenderLines(entries)[i])
  {
    var lines := RenderLines(entries);
    forall i | 0 <= i < |lines|
      ensures SafeLine(lines[i])
    {
      var e := entries[i];
      RenderValueWithoutNewline(e.1);
      assert lines[i] == e.0 + KeySep + RenderValue(e.1);
      assert lines[i][|e.0|] == ':';
      assert lines[i] != "---" by {
        assert ':' in lines[i];
      }
    }
  }

  /** In a written document with at least one line, the first closing
      delimiter sits right after the joined lines. */
  lemma CloseAfterBlock(lines: seq<string>, content: string, doc: string)
    requires |lines| >= 1
    requires forall i :: 0 <= i < |lines| ==> SafeLine(lines[i])
    requires doc == Open + (Join(lines, "\n") + Close + content)
    ensures FirstCloseAt(doc, 4 + |Join(lines, "\n")|)
  {
    var j := Join(lines, "\n");
    CloseAfterLines(lines, content);
    IndexFromShift(Open, j + Close + content, Close, 0);
    assert IndexFrom(doc, Close, 4) == 4 + |j|;
  }

  /** The record with no entries is written as "---\n\n---\n" and read back
      as empty data and its content. */
  lemma RoundTripEmpty(content: string)
    ensures ParseFrontmatter(Serialize([], content)) == Frontmatter(map[], content)
  {
    var doc := Serialize([], content);
    assert doc == "---\n\n---\n" + content;
    assert MatchAt(doc, Close, 4) by {
      assert doc[4..9] == Close;
    }
    assert FirstCloseAt(doc, 4);
    assert doc[4..4] == "";
    assert SplitLine("") == None by {
      assert forall i :: !MatchAt("", KeySep, i);
    }
    assert ParseLines(map[], [""]) == ParseLines(map[], []);
    assert doc[9..] == content;
  }

  /** Round trip: the topic reader recovers, from a written topic file, the
      key/value data of the record and its content exactly. This includes
      the record with no frontmatter entries. */
  lemma RoundTrip(entries: seq<Entry>, content: string)
    requires WellFormed(entries)
    ensures ParseFrontmatter(Serialize(entries, content)) == Frontmatter(EntriesMap(entries), content)
  {
    if entries == [] {
      RoundTripEmpty(content);
    } else {
      var lines := RenderLines(entries);
      var j := Join(lines, "\n");
      var doc := Serialize(entries, content);
      assert doc == Open + (j + Close + content);
      RenderedLinesSafe(entries);
      CloseAfterBlock(lines, content, doc);
      assert doc[4..4 + |j|] == j;
      assert doc[4 + |j| + 5..] == content;
      SplitJoin(lines, '\n');
      ParseRenderedLines(map[], entries);
    }
  }

  /** Every element after the first, with the one space the writer puts after
      each comma. */
  function Spaced(xs: seq<string>): (r: seq<string>)
    ensures |r| == |xs|
    ensures forall i :: 0 <= i < |xs| ==> r[i] == " " + xs[i]
  {
    if xs == [] then [] else [" " + xs[0]] + Spaced(xs[1..])
  }

  lemma {:induction false} JoinSpaced(xs: seq<string>)
    requires |xs| >= 1
    ensures Join(Spaced(xs), ",") == " " + Join(xs, ListSep)
    decreases |xs|
  {
    if |xs| > 1 {
      JoinSpaced(xs[1..]);
      assert Spaced(xs)[1..] == Spaced(xs[1..]);
    }
  }

  /** What splitting a written array on "," gives: the first element, then
      every later one behind the space that followed its comma. */
  function ArrayPieces(items: seq<string>): seq<string>
    requires items != []
  {
    [items[0]] + Spaced(items[1..])
  }

  lemma JoinArrayPieces(items: seq<string>)
    requires items != []
    ensures Join(ArrayPieces(items), ",") == Join(items, ListSep)
  {
    if |items| > 1 {
      JoinSpaced(items[1..]);
      assert ArrayPieces(items)[1..] == Spaced(items[1..]);
    }
  }

  lemma TrimPiece(items: seq<string>, i: nat)
    requires i < |items| && items[i] != "" && Trimmed(items[i])
    ensures Trim(ArrayPieces(items)[i]) == items[i]
  {
    if i == 0 {
      TrimIdentity(items[0]);
    } else {
      assert ArrayPieces(items)[i] == " " + items[i];
      TrimLeadingSpace(items[i]);
    }
  }

  lemma TrimArrayPieces(items: seq<string>)
    requires items != []
    requires forall i :: 0 <= i < |items| ==> items[i] != "" && Trimmed(items[i])
    ensures TrimAll(ArrayPieces(items)) == items
  {
    var trimmed := TrimAll(ArrayPieces(items));
    forall i | 0 <= i < |items|
      ensures trimmed[i] == items[i]
    {
      TrimPiece(items, i);
    }
  }

  /** A written non-empty array is bracketed and its inside is the
      elements joined by ", ". */
  lemma RenderedArrayShape(items: seq<string>)
    requires items != [] && items[0] != ""
    ensures var v := RenderValue(List(items));
            && v != "" && v != "[]" && StartsWith(v, "[")
            && DropEnds(v) == Join(items, ListSep)
  {
    var j := Join(items, ListSep);
    var v := RenderValue(List(items));
    assert |j| >= |items[0]|;
    if |items| > 1 {
      assert j == items[0] + ListSep + Join(items[1..], ListSep);
    }
    assert v == "[" + j + "]";
    assert v[1..|v| - 1] == j;
  }

  lemma PiecesCommaFree(items: seq<string>)
    requires items != []
    requires forall i :: 0 <= i < |items| ==> ',' !in items[i]
    ensures forall i :: 0 <= i < |ArrayPieces(items)| ==> ',' !in ArrayPieces(items)[i]
  {
    var pieces := ArrayPieces(items);
    forall i | 0 <= i < |pieces|
      ensures ',' !in pieces[i]
    {
      if i > 0 {
        assert pieces[i] == " " + items[i];
      }
    }
  }

  /** Array round trip: an array whose elements are non-empty, trimmed and
      comma-free is read back element for element; `[]` reads back as `[]`. */
  lemma ArrayRoundTrip(items: seq<string>)
    requires forall i :: 0 <= i < |items| ==> items[i] != "" && Trimmed(items[i]) && ',' !in items[i]
    ensures ParseArray(Some(RenderValue(List(items)))) == items
  {
    if items != [] {
      var pieces := ArrayPieces(items);
      RenderedArrayShape(items);
      JoinArrayPieces(items);
      PiecesCommaFree(items);
      SplitJoin(pieces, ',');
      TrimArrayPieces(items);
    }
  }

  /** One entry of the registry's topic list. */
  datatype TopicRef = TopicRef(slug: string, filename: string)

  /** One topic record as the registry serves it. */
  datatype TopicDoc = TopicDoc(frontmatter: seq<Entry>, content: string)

  datatype FileWrite = FileWrite(path: string, text: string)

  /** The registry answered the topic's request. */
  predicate Answered(fetch: string -> Option<TopicDoc>, t: TopicRef) {
    fetch(t.slug).Some?
  }

  /** The topics whose fetch succeeded, in list order. */
  function Fetched(topics: seq<TopicRef>, fetch: string -> Option<TopicDoc>): (r: seq<TopicRef>)
    ensures forall t :: t in r <==> t in topics && Answered(fetch, t)
    ensures |r| <= |topics|
  {
    if topics == [] then []
    else
      var rest := Fetched(topics[1..], fetch);
      assert topics == [topics[0]] + topics[1..];
      if Answered(fetch, topics[0]) then
        var r := [topics[0]] + rest;
        assert r[1..] == rest;
        r
      else rest
  }

  /** A fetched topic is kept as often as it is listed; the others not at all. */
  lemma {:induction false} FetchedCounts(topics: seq<TopicRef>, fetch: string -> Option<TopicDoc>, t: TopicRef)
    ensures multiset(Fetched(topics, fetch))[t] == if Answered(fetch, t) then multiset(topics)[t] else 0
    decreases |topics|
  {
    if topics != [] {
      FetchedCounts(topics[1..], fetch, t);
      assert topics == [topics[0]] + topics[1..];
    }
  }

  /** The kept topics are in list order. */
  lemma {:induction false} FetchedInOrder(topics: seq<TopicRef>, fetch: string -> Option<TopicDoc>)
    ensures IsSubsequence(Fetched(topics, fetch), topics)
    decreases |topics|
  {
    if topics != [] {
      FetchedInOrder(topics[1..], fetch);
      var rest := Fetched(topics[1..], fetch);
      if Answered(fetch, topics[0]) {
        assert ([topics[0]] + rest)[1..] == rest;
      }
    }
  }

  /** Every fetch succeeding keeps the whole list; every fetch failing keeps none. */
  lemma {:induction false} FetchedAllOrNone(topics: seq<TopicRef>, fetch: string -> Option<TopicDoc>)
    ensures (forall i :: 0 <= i < |topics| ==> Answered(fetch, topics[i])) ==> Fetched(topics, fetch) == topics
    ensures (forall i :: 0 <= i < |topics| ==> !Answered(fetch, topics[i])) ==> Fetched(topics, fetch) == []
    decreases |topics|
  {
    if topics != [] {
      FetchedAllOrNone(topics[1..], fetch);
      assert topics == [topics[0]] + topics[1..];
    }
  }

  /** The file written for one fetched topic. */
  function TopicFile(topicsDir: string, t: TopicRef, doc: TopicDoc): FileWrite {
    FileWrite(topicsDir + "/" + t.filename, Serialize(doc.frontmatter, doc.content))
  }

  /** One file per topic, each topic's fetch having succeeded. */
  function WritesFor(topicsDir: string, ok: seq<TopicRef>, fetch: string -> Option<TopicDoc>): (r: seq<FileWrite>)
    requires forall i :: 0 <= i < |ok| ==> Answered(fetch, ok[i])
    ensures |r| == |ok|
    ensures forall i :: 0 <= i < |ok| ==> Answered(fetch, ok[i]) && r[i] == TopicFile(topicsDir, ok[i], fetch(ok[i].slug).value)
  {
    if ok == [] then []
    else
      assert Answered(fetch, ok[0]);
      [TopicFile(topicsDir, ok[0], fetch(ok[0].slug).value)] + WritesFor(topicsDir, ok[1..], fetch)
  }

  /** The topic files an install writes: one per topic whose fetch
      succeeded, in list order, each the serialised record under the
      topic's file name; a failed fetch is skipped. `fetch` answers the
      per-topic request by slug. */
  function TopicWrites(topicsDir: string, topics: seq<TopicRef>, fetch: string -> Option<TopicDoc>): (r: seq<FileWrite>)
    ensures var ok := Fetched(topics, fetch);
            && |r| == |ok|
            && forall i :: 0 <= i < |ok| ==>
                 Answered(fetch, ok[i]) && r[i] == TopicFile(topicsDir, ok[i], fetch(ok[i].slug).value)
  {
    var ok := Fetched(topics, fetch);
    assert forall i :: 0 <= i < |ok| ==> ok[i] in ok;
    WritesFor(topicsDir, ok, fetch)
  }

  datatype InstallError = NotInRegistry(name: string) | InvalidConfig(name: string)

  /** The file writes an install performs, what it returns, and how many
      topics it reports as downloaded. */
  datatype InstallOutcome = InstallOutcome(writes: seq<FileWrite>, result: Result<string, InstallError>, downloaded: nat)

  const ConfigFile: string := "grimoire.json"

  /** The topic list, empty when its request failed. */
  function TopicsOf(topicList: Option<seq<TopicRef>>): seq<TopicRef> {
    if topicList.Some? then topicList.value else []
  }

  /** `fetchFromRegistry`. `alreadyExists` is the local project check;
      `configJson` is the registry's config rendered as two-space JSON, or
      None when that request failed; `configValid` is the outcome of the
      config schema check; `topicList` is the registry's topic list, or None
      when that request failed; `fetch` answers each topic request. */
  function FetchFromRegistry(name: string, alreadyExists: bool, projectsRoot: string,
                             configJson: Option<string>, configValid: bool,
                             topicList: Option<seq<TopicRef>>, fetch: string -> Option<TopicDoc>): (r: InstallOutcome)
    ensures alreadyExists ==> r == InstallOutcome([], Ok(name), 0)
    ensures !alreadyExists && configJson.None? ==> r == InstallOutcome([], Err(NotInRegistry(name)), 0)
    ensures !alreadyExists && configJson.Some? ==> (r.result.Ok? <==> configValid)
    ensures !alreadyExists && configJson.Some? && !configValid ==> r == InstallOutcome([], Err(InvalidConfig(name)), 0)
    ensures r.result.Err? ==> r.writes == []
    ensures r.result.Ok? ==> r.result.value == name
    ensures r.result.Ok? && !alreadyExists ==>
              && configJson.Some? && configValid
              && |r.writes| == 1 + r.downloaded
              && r.writes[0] == FileWrite(projectsRoot + "/" + name + "/" + ConfigFile, configJson.value + "\n")
              && r.writes[1..] == TopicWrites(projectsRoot + "/" + name + "/topics", TopicsOf(topicList), fetch)
              && r.downloaded == |Fetched(TopicsOf(topicList), fetch)|
              && (topicList.None? ==> r.downloaded == 0)
  {
    if alreadyExists then InstallOutcome([], Ok(name), 0)
    else if configJson.None? then InstallOutcome([], Err(NotInRegistry(name)), 0)
    else if !configValid then InstallOutcome([], Err(InvalidConfig(name)), 0)
    else
      var projectDir := projectsRoot + "/" + name;
      var topics := TopicsOf(topicList);
      var topicFiles := TopicWrites(projectDir + "/topics", topics, fetch);
      InstallOutcome([FileWrite(projectDir + "/" + ConfigFile, configJson.value + "\n")] + topicFiles,
                     Ok(name), |topicFiles|)
  }

  /** Every topic file an install writes lies in the project's topics
      directory under a listed topic's file name, and the frontmatter parser
      reads it back to that topic's record: its key/value data and its exact
      content, when the fetched records are well formed. */
  lemma InstalledTopicsReadBack(name: string, projectsRoot: string, configJson: Option<string>, configValid: bool,
                                topicList: Option<seq<TopicRef>>, fetch: string -> Option<TopicDoc>, k: nat)
    requires forall t :: t in TopicsOf(topicList) && fetch(t.slug).Some? ==> WellFormed(fetch(t.slug).value.frontmatter)
    requires 0 < k < |FetchFromRegistry(name, false, projectsRoot, configJson, configValid, topicList, fetch).writes|
    ensures var w := FetchFromRegistry(name, false, projectsRoot, configJson, configValid, topicList, fetch).writes[k];
            exists t :: t in TopicsOf(topicList) && fetch(t.slug).Some?
                        && w.path == projectsRoot + "/" + name + "/topics" + "/" + t.filename
                        && ParseFrontmatter(w.text)
                           == Frontmatter(EntriesMap(fetch(t.slug).value.frontmatter), fetch(t.slug).value.content)
  {
    var r := FetchFromRegistry(name, false, projectsRoot, configJson, configValid, topicList, fetch);
    var topics := TopicsOf(topicList);
    var dir := projectsRoot + "/" + name + "/topics";
    var writes := TopicWrites(dir, topics, fetch);
    assert r.result.Ok?;
    assert r.writes[1..] == writes;
    assert r.writes[k] == r.writes[1..][k - 1];
    var t := TopicWriteReadBack(dir, topics, fetch, k - 1);
  }

  /** The `j`th topic file written is a fetched topic's record, read back
      by the frontmatter parser. */
  lemma TopicWriteReadBack(dir: string, topics: seq<TopicRef>, fetch: string -> Option<TopicDoc>, j: nat)
      returns (t: TopicRef)
    requires forall t :: t in topics && fetch(t.slug).Some? ==> WellFormed(fetch(t.slug).value.frontmatter)
    requires j < |TopicWrites(dir, topics, fetch)|
    ensures t in topics && fetch(t.slug).Some?
    ensures TopicWrites(dir, topics, fetch)[j].path == dir + "/" + t.filename
    ensures ParseFrontmatter(TopicWrites(dir, topics, fetch)[j].text)
            == Frontmatter(EntriesMap(fetch(t.slug).value.frontmatter), fetch(t.slug).value.content)
  {
    var ok := Fetched(topics, fetch);
    t := ok[j];
    assert t in ok;
    var doc := fetch(t.slug).value;
    RoundTrip(doc.frontmatter, doc.content);
  }
}

=== FILE: results.dfy ===
/** Optional values, success/failure results, and the two JavaScript ways of
    looking at an optional string: truthiness (`if (x)`) and nullish
    coalescing (`x ?? y`). The commands use both and they differ on "". */
module Results {

  datatype Option<+T> = None | Some(value: T)

  datatype Result<+T, +E> = Ok(value: T) | Err(error: E)

  /** `if (s)` on a `string | undefined`: undefined and "" are falsy. */
  predicate Truthy(s: Option<string>) {
    s.Some? && s.value != ""
  }

  /** `a ?? b`: only an absent value falls through; "" does not. */
  function Coalesce<T>(a: Option<T>, b: Option<T>): (r: Option<T>)
    ensures a.Some? ==> r == a
    ensures a.None? ==> r == b
  {
    if a.Some? then a else b
  }
}

=== FILE: search.dfy ===
/** The search command: filtering the registry index by a query, the
    message for an empty result, and the "installed" badge on each listed
    grimoire. The registry response and the projects directory are
    parameters. */
module Search {
  import opened Results
  import opened Strings
  import opened Sequences
  import opened GrimoireHome
  import RegistryFetcher

  /** One entry of the registry index. */
  datatype Grimoire = Grimoire(name: string, owner: string, repo: string, description: string,
                               topicCount: int, version: string)

  /** The `owner/repo` reference a grimoire is listed and installed under. */
  function Ref(g: Grimoire): string {
    g.owner + "/" + g.repo
  }

  /** The lowercased name, owner, repo or description contains `q`. */
  predicate Matches(g: Grimoire, q: string) {
    || Contains(Lower(g.name), q)
    || Contains(Lower(g.owner), q)
    || Contains(Lower(g.repo), q)
    || Contains(Lower(g.description), q)
  }

  function FilterMatching(gs: seq<Grimoire>, q: string): (r: seq<Grimoire>)
    ensures forall g :: g in r <==> g in gs && Matches(g, q)
    ensures forall g :: multiset(r)[g] == if Matches(g, q) then multiset(gs)[g] else 0
    ensures IsSubsequence(r, gs)
    ensures (forall i :: 0 <= i < |gs| ==> Matches(gs[i], q)) ==> r == gs
  {
    if gs == [] then []
    else
      var rest := FilterMatching(gs[1..], q);
      assert gs == [gs[0]] + gs[1..];
      if Matches(gs[0], q) then
        var r := [gs[0]] + rest;
        assert r[1..] == rest;
        r
      else rest
  }

  /** The query as used: lowercased once, absent when not given. */
  function LowerQuery(query: Option<string>): (q: Option<string>)
    ensures q.Some? <==> query.Some?
    ensures q.Some? ==> |q.value| == |query.value|
  {
    if query.Some? then Some(Lower(query.value)) else None
  }

  /** The grimoires shown: filtered when the lowercased query is truthy,
      the whole index otherwise. */
  function SearchResults(query: Option<string>, gs: seq<Grimoire>): (r: seq<Grimoire>)
    ensures IsSubsequence(r, gs)
    ensures forall g :: g in r <==> g in gs && (!Truthy(query) || Matches(g, Lower(query.value)))
    ensures !Truthy(query) ==> r == gs
    ensures Truthy(query) ==> r == FilterMatching(gs, Lower(query.value))
  {
    var q := LowerQuery(query);
    if Truthy(q) then FilterMatching(gs, q.value)
    else
      assert IsSubsequence(gs, gs) by { SubsequenceRefl(gs); }
      gs
  }

  /** An absent or empty query shows the whole index. */
  lemma NoQueryShowsAll(gs: seq<Grimoire>)
    ensures SearchResults(None, gs) == gs
    ensures SearchResults(Some(""), gs) == gs
  {
  }

  /** Queries that agree once lowercased give the same results; in
      particular the case the query is typed in does not matter. */
  lemma SearchIgnoresQueryCase(q: string, q': string, gs: seq<Grimoire>)
    requires Lower(q) == Lower(q')
    ensures SearchResults(Some(q), gs) == SearchResults(Some(q'), gs)
  {
  }

  lemma SearchUpperCaseQuery(q: string, gs: seq<Grimoire>)
    ensures SearchResults(Some(Upper(q)), gs) == SearchResults(Some(q), gs)
  {
    LowerForgetsCase(q);
    SearchIgnoresQueryCase(Upper(q), q, gs);
  }

  /** The badge as written: `owner/repo` looked up among the listed
      project names. */
  predicate InstalledAsWritten(g: Grimoire, listed: set<string>) {
    Ref(g) in listed
  }

  /** The listed names never contain "/", so the badge as written is never
      shown, whatever is installed. */
  lemma BadgeAsWrittenNeverShown(g: Grimoire, dirs: Dirs)
    ensures !InstalledAsWritten(g, ListProjects(dirs))
  {
    assert Ref(g)[|g.owner|] == '/';
  }

  /** Installing `tim-smart/effect-atom` into an empty projects directory
      makes the project exist, yet the badge as written stays off. */
  lemma BadgeAsWrittenCounterexample()
    ensures var g := Grimoire("effect-atom", "tim-smart", "effect-atom", "", 3, "1.0.0");
            var dirs := InstallDirs({}, Ref(g));
            ProjectExists(Ref(g), dirs) && !InstalledAsWritten(g, ListProjects(dirs))
  {
    var g := Grimoire("effect-atom", "tim-smart", "effect-atom", "", 3, "1.0.0");
    InstallCreatesProject({}, Ref(g));
    BadgeAsWrittenNeverShown(g, InstallDirs({}, Ref(g)));
  }

  /** The badge as intended: the project `owner/repo` exists, the same
      check the install uses to skip an already installed grimoire. */
  predicate Installed(g: Grimoire, dirs: Dirs) {
    ProjectExists(Ref(g), dirs)
  }

  /** The intended badge is on exactly when installing the grimoire would
      change nothing: after an install it is on, and when it is on the
      install returns at once without writing. */
  lemma BadgeMatchesInstall(g: Grimoire, dirs: Dirs, projectsRoot: string,
                            configJson: Option<string>, configValid: bool,
                            topicList: Option<seq<RegistryFetcher.TopicRef>>,
                            fetch: string -> Option<RegistryFetcher.TopicDoc>)
    ensures Installed(g, InstallDirs(dirs, Ref(g)))
    ensures Installed(g, dirs) ==>
              RegistryFetcher.FetchFromRegistry(Ref(g), ProjectExists(Ref(g), dirs), projectsRoot,
                                                configJson, configValid, topicList, fetch)
              == RegistryFetcher.InstallOutcome([], Ok(Ref(g)), 0)
    ensures !Installed(g, dirs) && configJson.None? ==>
              RegistryFetcher.FetchFromRegistry(Ref(g), ProjectExists(Ref(g), dirs), projectsRoot,
                                                configJson, configValid, topicList, fetch).result.Err?
  {
    InstallCreatesProject(dirs, Ref(g));
  }

  /** One listed grimoire: its reference, description, topic count and
      whether the badge is shown. */
  datatype Row = Row(ref: string, description: string, topicCount: int, installed: bool)

  datatype SearchView =
    | NoMatches(query: string)
    | RegistryEmpty
    | Listing(rows: seq<Row>)

  /** One row per grimoire shown, the badge decided by `badge`. */
  function RowsWith(gs: seq<Grimoire>, badge: Grimoire -> bool): (r: seq<Row>)
    ensures |r| == |gs|
    ensures forall i :: 0 <= i < |gs| ==>
              r[i] == Row(Ref(gs[i]), gs[i].description, gs[i].topicCount, badge(gs[i]))
  {
    if gs == [] then [] else [Row(Ref(gs[0]), gs[0].description, gs[0].topicCount, badge(gs[0]))] + RowsWith(gs[1..], badge)
  }

  /** The view for a query, the registry index and a badge rule. */
  function ViewWith(query: Option<string>, index: seq<Grimoire>, badge: Grimoire -> bool): (v: SearchView)
    ensures v.NoMatches? <==> Truthy(query) && SearchResults(query, index) == []
    ensures v.NoMatches? ==> v.query == Lower(query.value)
    ensures v.RegistryEmpty? <==> !Truthy(query) && index == []
    ensures v.Listing? ==>
              && |v.rows| == |SearchResults(query, index)| > 0
              && forall i :: 0 <= i < |v.rows| ==>
                   && v.rows[i].ref == Ref(SearchResults(query, index)[i])
                   && v.rows[i].description == SearchResults(query, index)[i].description
                   && v.rows[i].topicCount == SearchResults(query, index)[i].topicCount
                   && v.rows[i].installed == badge(SearchResults(query, index)[i])
  {
    var q := LowerQuery(query);
    var shown := SearchResults(query, index);
    if shown == [] then
      if Truthy(q) then NoMatches(q.value) else RegistryEmpty
    else Listing(RowsWith(shown, badge))
  }

  /** What the search command shows, as written: the badge is on when
      `owner/repo` is among the listed project names. */
  function Search(query: Option<string>, index: seq<Grimoire>, dirs: Dirs): (v: SearchView)
    ensures v.NoMatches? <==> Truthy(query) && SearchResults(query, index) == []
    ensures v.NoMatches? ==> v.query == Lower(query.value)
    ensures v.RegistryEmpty? <==> !Truthy(query) && index == []
    ensures v.Listing? ==>
              && |v.rows| == |SearchResults(query, index)| > 0
              && forall i :: 0 <= i < |v.rows| ==>
                   && v.rows[i].ref == Ref(SearchResults(query, index)[i])
                   && v.rows[i].description == SearchResults(query, index)[i].description
                   && v.rows[i].topicCount == SearchResults(query, index)[i].topicCount
                   && (v.rows[i].installed <==> v.rows[i].ref in ListProjects(dirs))
  {
    ViewWith(query, index, g => InstalledAsWritten(g, ListProjects(dirs)))
  }

  /** As written, no row ever carries the badge. */
  lemma SearchNeverShowsBadge(query: Option<string>, index: seq<Grimoire>, dirs: Dirs)
    ensures var v := Search(query, index, dirs);
            v.Listing? ==> forall i :: 0 <= i < |v.rows| ==> !v.rows[i].installed
  {
    var v := Search(query, index, dirs);
    if v.Listing? {
      forall i | 0 <= i < |v.rows|
        ensures !v.rows[i].installed
      {
        BadgeAsWrittenNeverShown(SearchResults(query, index)[i], dirs);
      }
    }
  }

  /** The search command with the badge as intended: on exactly when the
      project `owner/repo` exists. */
  function SearchIntended(query: Option<string>, index: seq<Grimoire>, dirs: Dirs): (v: SearchView)
    ensures v.NoMatches? <==> Truthy(query) && SearchResults(query, index) == []
    ensures v.NoMatches? ==> v.query == Lower(query.value)
    ensures v.RegistryEmpty? <==> !Truthy(query) && index == []
    ensures v.Listing? ==>
              && |v.rows| == |SearchResults(query, index)| > 0
              && forall i :: 0 <= i < |v.rows| ==>
                   && v.rows[i].ref == Ref(SearchResults(query, index)[i])
                   && v.rows[i].description == SearchResults(query, index)[i].description
                   && v.rows[i].topicCount == SearchResults(query, index)[i].topicCount
                   && (v.rows[i].installed <==> ProjectExists(v.rows[i].ref, dirs))
  {
    ViewWith(query, index, g => Installed(g, dirs))
  }

  /** The intended view differs from the written one in the badges only. */
  lemma SearchDiffersInBadgeOnly(query: Option<string>, index: seq<Grimoire>, dirs: Dirs)
    ensures var w := Search(query, index, dirs);
            var v := SearchIntended(query, index, dirs);
            && w.Listing? == v.Listing?
            && (!w.Listing? ==> w == v)
            && (w.Listing? ==>
                  && |w.rows| == |v.rows|
                  && forall j :: 0 <= j < |w.rows| ==> w.rows[j].(installed := false) == v.rows[j].(installed := false))
  {
  }

  /** After installing a grimoire the search shows, the intended view
      badges its row. */
  lemma SearchIntendedAfterInstall(query: Option<string>, index: seq<Grimoire>, dirs: Dirs, i: nat)
    requires i < |SearchResults(query, index)|
    ensures var v := SearchIntended(query, index, InstallDirs(dirs, Ref(SearchResults(query, index)[i])));
            v.Listing? && v.rows[i].installed
  {
    InstallCreatesProject(dirs, Ref(SearchResults(query, index)[i]));
  }
}

=== FILE: sequences.dfy ===
/** Order-preserving selection on sequences, shared by the filters of the
    topic reader and the search command. */
module Sequences {

  /** `xs` keeps some of the elements of `ys`, in their order. */
  predicate IsSubsequence<T(==)>(xs: seq<T>, ys: seq<T>)
    decreases |ys|
  {
    || xs == []
    || (ys != [] && if xs[0] == ys[0] then IsSubsequence(xs[1..], ys[1..]) else IsSubsequence(xs, ys[1..]))
  }

  lemma {:induction false} SubsequenceRefl<T>(xs: seq<T>)
    ensures IsSubsequence(xs, xs)
    decreases |xs|
  {
    if xs != [] {
      SubsequenceRefl(xs[1..]);
    }
  }
}

=== FILE: strings.dfy ===
/** The JavaScript string operations the commands rely on, each stated by what
    it returns rather than by how: `indexOf`, `includes`, `startsWith`,
    `endsWith`, `split` on one character, `join`, `trim` and `toLowerCase`. */
module Strings {

  /** `pat` occurs in `s` starting at index `i`. */
  predicate MatchAt(s: string, pat: string, i: int) {
    0 <= i && i + |pat| <= |s| && s[i..i + |pat|] == pat
  }

  predicate StartsWith(s: string, prefix: string) {
    |prefix| <= |s| && s[..|prefix|] == prefix
  }

  predicate EndsWith(s: string, suffix: string) {
    |suffix| <= |s| && s[|s| - |suffix|..] == suffix
  }

  /** `s.indexOf(pat, from)`: the first occurrence at or after `from`, or -1.
      For an empty pattern and `from` past the end, `indexOf` clamps the
      position and answers `|s|` where this answers -1; the callers search
      only for non-empty patterns (": " and "\n---\n"). */
  function IndexFrom(s: string, pat: string, from: nat): (r: int)
    ensures r == -1 || (from <= r && MatchAt(s, pat, r))
    ensures r == -1 ==> forall i :: from <= i ==> !MatchAt(s, pat, i)
    ensures r != -1 ==> forall i :: from <= i < r ==> !MatchAt(s, pat, i)
    decreases |s| - from
  {
    if from + |pat| > |s| then -1
    else if MatchAt(s, pat, from) then from
    else IndexFrom(s, pat, from + 1)
  }

  /** `s.includes(pat)`. */
  predicate Contains(s: string, pat: string) {
    IndexFrom(s, pat, 0) != -1
  }

  lemma ContainsIff(s: string, pat: string)
    ensures Contains(s, pat) <==> exists i :: MatchAt(s, pat, i)
  {
    if Contains(s, pat) {
      assert MatchAt(s, pat, IndexFrom(s, pat, 0));
    }
  }

  /** Shifting the haystack right by a prefix shifts every occurrence. */
  lemma MatchAtShift(p: string, s: string, pat: string, i: nat)
    ensures MatchAt(p + s, pat, |p| + i) == MatchAt(s, pat, i)
  {
    if i + |pat| <= |s| {
      assert (p + s)[|p| + i..|p| + i + |pat|] == s[i..i + |pat|];
    }
  }

  lemma {:induction false} IndexFromShift(p: string, s: string, pat: string, k: nat)
    ensures IndexFrom(p + s, pat, |p| + k)
         == (if IndexFrom(s, pat, k) == -1 then -1 else |p| + IndexFrom(s, pat, k))
    decreases |s| - k
  {
    MatchAtShift(p, s, pat, k);
    if k + |pat| > |s| {
    } else if MatchAt(s, pat, k) {
    } else {
      IndexFromShift(p, s, pat, k + 1);
    }
  }

  /** A position without an occurrence is passed over. */
  lemma IndexFromStep(s: string, pat: string, k: nat)
    requires !MatchAt(s, pat, k)
    ensures IndexFrom(s, pat, k) == IndexFrom(s, pat, k + 1)
  {
  }

  /** A prefix that never holds the pattern's first character is skipped over. */
  lemma {:induction false} IndexFromSkip(x: string, y: string, pat: string, k: nat)
    requires |pat| > 0 && k <= |x|
    requires forall i :: 0 <= i < |x| ==> x[i] != pat[0]
    ensures IndexFrom(x + y, pat, k) == IndexFrom(x + y, pat, |x|)
    decreases |x| - k
  {
    if k < |x| {
      assert !MatchAt(x + y, pat, k) by {
        if k + |pat| <= |x + y| {
          assert (x + y)[k..k + |pat|][0] == x[k];
        }
      }
      IndexFromSkip(x, y, pat, k + 1);
    }
  }

  /** The first index of `c` in `s`. */
  function IndexOfChar(s: string, c: char): (r: nat)
    requires c in s
    ensures r < |s| && s[r] == c && c !in s[..r]
  {
    if s[0] == c then 0
    else
      assert c in s[1..];
      var r := 1 + IndexOfChar(s[1..], c);
      assert s[..r] == [s[0]] + s[1..][..r - 1];
      r
  }

  /** `parts.join(sep)`. */
  function Join(parts: seq<string>, sep: string): string
  {
    if |parts| == 0 then ""
    else if |parts| == 1 then parts[0]
    else parts[0] + sep + Join(parts[1..], sep)
  }

  /** `s.split(c)` for a one-character separator: every piece is free of `c`
      and joining the pieces back with `c` gives `s`. */
  function Split(s: string, c: char): (r: seq<string>)
    ensures |r| >= 1
    ensures forall i :: 0 <= i < |r| ==> c !in r[i]
    ensures Join(r, [c]) == s
    decreases |s|
  {
    if c !in s then [s]
    else
      var i := IndexOfChar(s, c);
      var rest := Split(s[i + 1..], c);
      var r := [s[..i]] + rest;
      assert r[1..] == rest;
      assert s == s[..i] + [c] + s[i + 1..];
      r
  }

  /** The first separator in a join sits right after the first part. */
  lemma {:induction false} SplitJoinStep(parts: seq<string>, c: char)
    requires |parts| > 1 && c !in parts[0]
    ensures Split(Join(parts, [c]), c) == [parts[0]] + Split(Join(parts[1..], [c]), c)
  {
    var s := Join(parts, [c]);
    var tail := Join(parts[1..], [c]);
    var n := |parts[0]|;
    assert s == parts[0] + [c] + tail;
    assert s[n] == c;
    var i := IndexOfChar(s, c);
    assert s[..n] == parts[0];
    assert i == n;
    assert s[i + 1..] == tail;
  }

  /** Splitting undoes joining whenever no piece holds the separator. */
  lemma {:induction false} SplitJoin(parts: seq<string>, c: char)
    requires |parts| >= 1
    requires forall i :: 0 <= i < |parts| ==> c !in parts[i]
    ensures Split(Join(parts, [c]), c) == parts
  {
    if |parts| > 1 {
      SplitJoinStep(parts, c);
      SplitJoin(parts[1..], c);
      assert parts == [parts[0]] + parts[1..];
    }
  }

  /** The characters `String.prototype.trim` removes: ECMAScript WhiteSpace
      and LineTerminator code points. */
  predicate IsSpace(c: char) {
    || c == ' ' || c == '\t' || c == '\n' || c == '\r'
    || c == '\U{000B}' || c == '\U{000C}' || c == '\U{00A0}' || c == '\U{1680}'
    || ('\U{2000}' <= c <= '\U{200A}')
    || c == '\U{2028}' || c == '\U{2029}' || c == '\U{202F}' || c == '\U{205F}'
    || c == '\U{3000}' || c == '\U{FEFF}'
  }

  /** Neither end is whitespace. */
  predicate Trimmed(s: string) {
    s == [] || (!IsSpace(s[0]) && !IsSpace(s[|s| - 1]))
  }

  function TrimStart(s: string): (r: string)
    ensures |r| <= |s| && r == s[|s| - |r|..]
    ensures r == [] || !IsSpace(r[0])
    ensures forall i :: 0 <= i < |s| - |r| ==> IsSpace(s[i])
  {
    if |s| > 0 && IsSpace(s[0]) then TrimStart(s[1..]) else s
  }

  function TrimEnd(s: string): (r: string)
    ensures |r| <= |s| && r == s[..|r|]
    ensures r == [] || !IsSpace(r[|r| - 1])
    ensures forall i :: |r| <= i < |s| ==> IsSpace(s[i])
  {
    if |s| > 0 && IsSpace(s[|s| - 1]) then TrimEnd(s[..|s| - 1]) else s
  }

  /** `r` is `s` with `k` characters dropped in front and the rest of the
      excess dropped at the back, every dropped character being whitespace. */
  predicate StrippedAt(s: string, r: string, k: int) {
    && 0 <= k && k + |r| <= |s| && s[k..k + |r|] == r
    && (forall i :: 0 <= i < k ==> IsSpace(s[i]))
    && (forall i :: k + |r| <= i < |s| ==> IsSpace(s[i]))
  }

  lemma TrimBothTrimmed(s: string)
    ensures Trimmed(TrimEnd(TrimStart(s)))
  {
    var t := TrimStart(s);
    var r := TrimEnd(t);
    if r != [] {
      assert r[0] == t[0];
    }
  }

  lemma TrimBothStripped(s: string)
    ensures StrippedAt(s, TrimEnd(TrimStart(s)), |s| - |TrimStart(s)|)
  {
    var t := TrimStart(s);
    StrippedFromParts(s, t, TrimEnd(t), |s| - |t|);
  }

  /** Dropping a whitespace prefix and then a whitespace suffix strips `s`. */
  lemma StrippedFromParts(s: string, t: string, r: string, k: nat)
    requires k + |t| == |s| && t == s[k..]
    requires forall i :: 0 <= i < k ==> IsSpace(s[i])
    requires |r| <= |t| && r == t[..|r|]
    requires forall i :: |r| <= i < |t| ==> IsSpace(t[i])
    ensures StrippedAt(s, r, k)
  {
    assert s[k..][..|r|] == s[k..k + |r|];
    forall i | k + |r| <= i < |s|
      ensures IsSpace(s[i])
    {
      assert s[i] == t[i - k];
    }
  }

  /** `s.trim()`: whitespace is dropped at both ends and nowhere else. */
  function Trim(s: string): (r: string)
    ensures Trimmed(r)
    ensures StrippedAt(s, r, |s| - |TrimStart(s)|)
  {
    TrimBothTrimmed(s);
    TrimBothStripped(s);
    TrimEnd(TrimStart(s))
  }

  /** Trimming changes nothing exactly when there is nothing to trim. */
  lemma TrimIdentity(s: string)
    ensures Trim(s) == s <==> Trimmed(s)
  {
    if Trimmed(s) {
      assert TrimStart(s) == s;
      assert TrimEnd(s) == s;
    }
  }

  /** One leading space in front of a trimmed, non-empty string is removed
      again by trimming. */
  lemma TrimLeadingSpace(x: string)
    requires x != "" && Trimmed(x)
    ensures Trim(" " + x) == x
  {
    assert (" " + x)[1..] == x;
    assert TrimStart(x) == x;
    assert TrimStart(" " + x) == x;
    assert TrimEnd(x) == x;
  }

  /** The lower-case form of an ASCII letter; other characters are kept. */
  function LowerChar(c: char): char {
    if 'A' <= c <= 'Z' then (c as int + 32) as char else c
  }

  function UpperChar(c: char): char {
    if 'a' <= c <= 'z' then (c as int - 32) as char else c
  }

  /** `s.toLowerCase()` restricted to ASCII letters. */
  function Lower(s: string): (r: string)
    ensures |r| == |s|
    ensures forall i :: 0 <= i < |s| ==> r[i] == LowerChar(s[i])
  {
    if s == [] then [] else [LowerChar(s[0])] + Lower(s[1..])
  }

  function Upper(s: string): (r: string)
    ensures |r| == |s|
    ensures forall i :: 0 <= i < |s| ==> r[i] == UpperChar(s[i])
  {
    if s == [] then [] else [UpperChar(s[0])] + Upper(s[1..])
  }

  /** Lower-casing forgets the case the string was written in. */
  lemma LowerForgetsCase(s: string)
    ensures Lower(Upper(s)) == Lower(s)
    ensures Lower(Lower(s)) == Lower(s)
  {
  }
}

=== FILE: topic_reader.dfy ===
/** Reading a project's topic files: the frontmatter parser, the list-value
    parser, the per-file defaults, and the order in which topics come back.
    Directory listing and file reads are parameters: `files` is the listing
    and `read` gives each file's text. */
module TopicReader {
  import opened Results
  import opened Strings
  import opened Sequences

  /** What `parseFrontmatter` returns: the key/value data and the body. */
  datatype Frontmatter = Frontmatter(data: map<string, string>, content: string)

  const Open: string := "---\n"
  const Close: string := "\n---\n"
  const KeySep: string := ": "

  /** A frontmatter line split at its first ": ", if it has one. */
  function SplitLine(line: string): (r: Option<(string, string)>)
    ensures r.None? <==> forall i :: !MatchAt(line, KeySep, i)
    ensures r.Some? ==> line == r.value.0 + KeySep + r.value.1
    ensures r.Some? ==> forall i :: !MatchAt(r.value.0, KeySep, i)
  {
    var idx := IndexFrom(line, KeySep, 0);
    if idx == -1 then None
    else
      var key := line[..idx];
      forall i | MatchAt(key, KeySep, i)
        ensures MatchAt(line, KeySep, i)
      {
        assert line[i..i + |KeySep|] == key[i..i + |KeySep|];
      }
      assert line == key + KeySep + line[idx + 2..];
      Some((key, line[idx + 2..]))
  }

  /** One line's effect on the data: a key/value line (over)writes its key,
      any other line leaves the data alone. */
  function ParseLine(data: map<string, string>, line: string): map<string, string>
  {
    match SplitLine(line)
    case None => data
    case Some((k, v)) => data[k := v]
  }

  /** The key a line would write, if any. */
  function LineKey(line: string): Option<string>
  {
    match SplitLine(line)
    case None => None
    case Some((k, _)) => Some(k)
  }

  /** The lines applied first to last. */
  function ParseLines(data: map<string, string>, lines: seq<string>): map<string, string>
    decreases |lines|
  {
    if |lines| == 0 then data else ParseLines(ParseLine(data, lines[0]), lines[1..])
  }

  /** A key no line writes keeps whatever it had before: lines without ": "
      contribute nothing. */
  lemma {:induction false} ParseLinesUntouched(data: map<string, string>, lines: seq<string>, k: string)
    requires forall i :: 0 <= i < |lines| ==> LineKey(lines[i]) != Some(k)
    ensures k in ParseLines(data, lines) <==> k in data
    ensures k in data ==> ParseLines(data, lines)[k] == data[k]
    decreases |lines|
  {
    if |lines| > 0 {
      assert LineKey(lines[0]) != Some(k);
      ParseLinesUntouched(ParseLine(data, lines[0]), lines[1..], k);
    }
  }

  /** The last line that writes a key decides its value: a later duplicate
      key overwrites an earlier one. */
  lemma {:induction false} ParseLinesLastWins(data: map<string, string>, lines: seq<string>, j: nat, k: string, v: string)
    requires j < |lines| && SplitLine(lines[j]) == Some((k, v))
    requires forall i :: j < i < |lines| ==> LineKey(lines[i]) != Some(k)
    ensures k in ParseLines(data, lines) && ParseLines(data, lines)[k] == v
    decreases |lines|
  {
    var next := ParseLine(data, lines[0]);
    if j == 0 {
      ParseLinesUntouched(next, lines[1..], k);
    } else {
      ParseLinesLastWins(next, lines[1..], j - 1, k, v);
    }
  }

  /** `e` is the first index at or after 4 where "\n---\n" occurs. */
  predicate FirstCloseAt(raw: string, e: int) {
    4 <= e && MatchAt(raw, Close, e) && forall i :: 4 <= i < e ==> !MatchAt(raw, Close, i)
  }

  /** The search `raw.indexOf("\n---\n", 4)` finds exactly the first close. */
  lemma FirstCloseUnique(raw: string, e: int)
    requires FirstCloseAt(raw, e)
    ensures IndexFrom(raw, Close, 4) == e
  {
  }

  /** `parseFrontmatter`: a document that opens with "---\n" and has a
      closing "\n---\n" at or after index 4 yields the key/value lines in
      between and the text after the first such closing line; any other
      document yields no data and the whole text as content. */
  function ParseFrontmatter(raw: string): (r: Frontmatter)
    ensures !StartsWith(raw, Open) ==> r == Frontmatter(map[], raw)
    ensures (forall i :: 4 <= i ==> !MatchAt(raw, Close, i)) ==> r == Frontmatter(map[], raw)
    ensures forall e :: StartsWith(raw, Open) && FirstCloseAt(raw, e) ==>
              r == Frontmatter(ParseLines(map[], Split(raw[4..e], '\n')), raw[e + 5..])
  {
    if !StartsWith(raw, Open) then Frontmatter(map[], raw)
    else
      var end := IndexFrom(raw, Close, 4);
      forall e | FirstCloseAt(raw, e)
        ensures e == end
      {
        FirstCloseUnique(raw, e);
      }
      if end == -1 then Frontmatter(map[], raw)
      else Frontmatter(ParseLines(map[], Split(raw[4..end], '\n')), raw[end + 5..])
  }

  /** `s.slice(1, -1)` on a non-empty string. */
  function DropEnds(s: string): (r: string)
    ensures |s| >= 2 ==> r == s[1..|s| - 1]
    ensures |s| < 2 ==> r == ""
  {
    if |s| >= 2 then s[1..|s| - 1] else ""
  }

  function TrimAll(parts: seq<string>): (r: seq<string>)
    ensures |r| == |parts|
    ensures forall i :: 0 <= i < |parts| ==> r[i] == Trim(parts[i])
  {
    if parts == [] then [] else [Trim(parts[0])] + TrimAll(parts[1..])
  }

  /** `.filter(Boolean)` on strings: drops the empty ones, keeps order. */
  function NonEmpty(parts: seq<string>): (r: seq<string>)
    ensures forall x :: x in r <==> x in parts && x != ""
    ensures forall x :: multiset(r)[x] == if x == "" then 0 else multiset(parts)[x]
    ensures IsSubsequence(r, parts)
    ensures (forall i :: 0 <= i < |parts| ==> parts[i] != "") ==> r == parts
  {
    if parts == [] then []
    else
      var rest := NonEmpty(parts[1..]);
      assert parts == [parts[0]] + parts[1..];
      if parts[0] != "" then
        var r := [parts[0]] + rest;
        assert r[1..] == rest;
        r
      else rest
  }

  /** The text a list value's elements are read from: without its first and
      last character when it opens with "[", as it is otherwise. */
  function Unbracket(v: string): (r: string)
    ensures StartsWith(v, "[") ==> r == DropEnds(v)
    ensures !StartsWith(v, "[") ==> r == v
  {
    if StartsWith(v, "[") then DropEnds(v) else v
  }

  /** `parseArray`: a bracketed, comma-separated list value. Absent, "" and
      "[]" give no elements; otherwise every element is non-empty, trimmed
      and free of commas. */
  function ParseArray(s: Option<string>): (r: seq<string>)
    ensures (!Truthy(s) || s.value == "[]") ==> r == []
    ensures Truthy(s) && s.value != "[]" ==> r == NonEmpty(TrimAll(Split(Unbracket(s.value), ',')))
    ensures forall x :: x in r ==> x != "" && Trimmed(x) && ',' !in x
  {
    if !Truthy(s) || s.value == "[]" then []
    else
      var inner := Unbracket(s.value);
      var pieces := Split(inner, ',');
      CleanElements(pieces);
      NonEmpty(TrimAll(pieces))
  }

  /** Trimmed comma-free pieces, with the empty ones dropped, are non-empty,
      trimmed and comma-free. */
  lemma CleanElements(pieces: seq<string>)
    requires forall i :: 0 <= i < |pieces| ==> ',' !in pieces[i]
    ensures forall x :: x in NonEmpty(TrimAll(pieces)) ==> x != "" && Trimmed(x) && ',' !in x
  {
    var trimmed := TrimAll(pieces);
    forall i | 0 <= i < |pieces|
      ensures ',' !in trimmed[i]
    {
      TrimKeepsAbsent(pieces[i], ',');
    }
  }

  /** Trimming never introduces a character. */
  lemma TrimKeepsAbsent(p: string, c: char)
    requires c !in p
    ensures c !in Trim(p)
  {
    SliceKeepsAbsent(p, Trim(p), |p| - |TrimStart(p)|, c);
  }

  lemma SliceKeepsAbsent(p: string, t: string, k: nat, c: char)
    requires k + |t| <= |p| && p[k..k + |t|] == t && c !in p
    ensures c !in t
  {
    forall i | 0 <= i < |t|
      ensures t[i] != c
    {
      assert t[i] == p[k + i];
    }
  }

  /** One topic as `readAll` builds it. */
  datatype TopicEntry = TopicEntry(
    slug: string,
    title: string,
    description: string,
    order: int,
    category: string,
    tags: seq<string>,
    relatedFiles: seq<string>,
    content: string,
    filePath: string)

  const MdSuffix: string := ".md"

  /** `file.replace(/\.md$/, "")`. */
  function BaseName(file: string): (r: string)
    ensures EndsWith(file, MdSuffix) ==> r + MdSuffix == file
    ensures !EndsWith(file, MdSuffix) ==> r == file
  {
    if EndsWith(file, MdSuffix) then file[..|file| - 3] else file
  }

  predicate IsDigit(c: char) {
    '0' <= c <= '9'
  }

  function LeadingDigits(s: string): (n: nat)
    ensures n <= |s|
    ensures forall i :: 0 <= i < n ==> IsDigit(s[i])
    ensures n == |s| || !IsDigit(s[n])
  {
    if s != [] && IsDigit(s[0]) then 1 + LeadingDigits(s[1..]) else 0
  }

  /** `s` opens with `n` digits (at least one) and a dash right after them. */
  predicate DigitsThenDash(s: string, n: int) {
    0 < n < |s| && s[n] == '-' && forall i :: 0 <= i < n ==> IsDigit(s[i])
  }

  /** `s.replace(/^\d+-/, "")`: a leading run of digits with a dash right
      after it is removed, dash included; any other string is left alone. */
  function StripNumberPrefix(s: string): (r: string)
    ensures r == s || exists n :: DigitsThenDash(s, n) && r == s[n + 1..]
    ensures forall n :: DigitsThenDash(s, n) ==> r == s[n + 1..]
  {
    var n := LeadingDigits(s);
    forall m | DigitsThenDash(s, m)
      ensures m == n
    {
    }
    if 0 < n < |s| && s[n] == '-' then
      assert DigitsThenDash(s, n);
      s[n + 1..]
    else s
  }

  /** A file named `<digits>-<name>.md` gets the slug `<name>`. */
  lemma NumberedFileSlug(digits: string, name: string)
    requires digits != [] && forall i :: 0 <= i < |digits| ==> IsDigit(digits[i])
    ensures StripNumberPrefix(BaseName(digits + "-" + name + MdSuffix)) == name
  {
    var file := digits + "-" + name + MdSuffix;
    assert file[..|file| - 3] == digits + "-" + name;
    var base := digits + "-" + name;
    assert base[..|digits|] == digits;
    assert LeadingDigits(base) == |digits| by {
      LeadingDigitsOfDigitsThenDash(digits, name);
    }
    assert base[|digits| + 1..] == name;
  }

  lemma {:induction false} LeadingDigitsOfDigitsThenDash(digits: string, name: string)
    requires forall i :: 0 <= i < |digits| ==> IsDigit(digits[i])
    ensures LeadingDigits(digits + "-" + name) == |digits|
    decreases |digits|
  {
    if digits != [] {
      assert (digits + "-" + name)[1..] == digits[1..] + "-" + name;
      LeadingDigitsOfDigitsThenDash(digits[1..], name);
    }
  }

  /** The value stored under `key`, or `default` when the key is absent. */
  function GetOr(data: map<string, string>, key: string, default: string): string
  {
    if key in data then data[key] else default
  }

  function Lookup(data: map<string, string>, key: string): Option<string>
  {
    if key in data then Some(data[key]) else None
  }

  /** The entry `readAll` builds from one file. `orderOf` is the source's
      `Number(...)` conversion of a present `order` value. */
  function MakeTopic(dir: string, file: string, raw: string, orderOf: string -> int): (t: TopicEntry)
    ensures var d := ParseFrontmatter(raw).data;
            && ("slug" in d ==> t.slug == d["slug"])
            && ("slug" !in d ==> t.slug == StripNumberPrefix(BaseName(file)))
            && ("title" in d ==> t.title == d["title"])
            && ("title" !in d ==> t.title == BaseName(file))
            && ("slug" !in d && "title" !in d ==> t.slug == StripNumberPrefix(t.title))
    ensures var d := ParseFrontmatter(raw).data;
            && ("description" in d ==> t.description == d["description"])
            && ("description" !in d ==> t.description == "")
            && ("category" in d ==> t.category == d["category"])
            && ("category" !in d ==> t.category == "general")
            && ("order" in d ==> t.order == orderOf(d["order"]))
            && ("order" !in d ==> t.order == 0)
    ensures var d := ParseFrontmatter(raw).data;
            && t.tags == ParseArray(Lookup(d, "tags"))
            && t.relatedFiles == ParseArray(Lookup(d, "relatedFiles"))
    ensures t.content == Trim(ParseFrontmatter(raw).content) && Trimmed(t.content)
    ensures t.filePath == dir + "/" + file
  {
    var fm := ParseFrontmatter(raw);
    var d := fm.data;
    TopicEntry(
      slug := GetOr(d, "slug", StripNumberPrefix(BaseName(file))),
      title := GetOr(d, "title", BaseName(file)),
      description := GetOr(d, "description", ""),
      order := if "order" in d then orderOf(d["order"]) else 0,
      category := GetOr(d, "category", "general"),
      tags := ParseArray(Lookup(d, "tags")),
      relatedFiles := ParseArray(Lookup(d, "relatedFiles")),
      content := Trim(fm.content),
      filePath := dir + "/" + file)
  }

  /** A file without frontmatter takes every default. */
  lemma DefaultsWithoutFrontmatter(dir: string, file: string, raw: string, orderOf: string -> int)
    requires !StartsWith(raw, Open)
    ensures MakeTopic(dir, file, raw, orderOf)
         == TopicEntry(StripNumberPrefix(BaseName(file)), BaseName(file), "", 0, "general",
                       [], [], Trim(raw), dir + "/" + file)
  {
  }

  /** `files.filter((f) => f.endsWith(".md"))`. */
  function MdFiles(files: seq<string>): (r: seq<string>)
    ensures forall f :: f in r <==> f in files && EndsWith(f, MdSuffix)
    ensures multiset(r) <= multiset(files)
  {
    if files == [] then []
    else
      assert files == [files[0]] + files[1..];
      if EndsWith(files[0], MdSuffix) then [files[0]] + MdFiles(files[1..])
      else MdFiles(files[1..])
  }

  /** Lexicographic order on characters: the default `sort()` of strings. */
  predicate LexLe(a: string, b: string)
    decreases |a|
  {
    a == [] || (b != [] && (a[0] < b[0] || (a[0] == b[0] && LexLe(a[1..], b[1..]))))
  }

  lemma {:induction false} LexLeTotal(a: string, b: string)
    ensures LexLe(a, b) || LexLe(b, a)
    decreases |a|
  {
    if a != [] && b != [] && a[0] == b[0] {
      LexLeTotal(a[1..], b[1..]);
    }
  }

  predicate NamesSorted(s: seq<string>) {
    forall i :: 0 < i < |s| ==> LexLe(s[i - 1], s[i])
  }

  function InsertName(x: string, s: seq<string>): (r: seq<string>)
    requires NamesSorted(s)
    ensures NamesSorted(r)
    ensures multiset(r) == multiset(s) + multiset{x}
    ensures r != [] && (r[0] == x || (s != [] && r[0] == s[0]))
  {
    if s == [] || LexLe(x, s[0]) then
      ConsNamesSorted(x, s);
      [x] + s
    else
      LexLeTotal(x, s[0]);
      var rest := InsertName(x, s[1..]);
      assert s == [s[0]] + s[1..];
      ConsNamesSorted(s[0], rest);
      [s[0]] + rest
  }

  lemma ConsNamesSorted(h: string, s: seq<string>)
    requires NamesSorted(s)
    requires s != [] ==> LexLe(h, s[0])
    ensures NamesSorted([h] + s)
  {
    forall i | 0 < i < |[h] + s|
      ensures LexLe(([h] + s)[i - 1], ([h] + s)[i])
    {
      if i > 1 {
        assert ([h] + s)[i - 1] == s[i - 2] && ([h] + s)[i] == s[i - 1];
      }
    }
  }

  /** `.sort()` on file names: ascending order, same names. */
  function SortNames(s: seq<string>): (r: seq<string>)
    ensures NamesSorted(r)
    ensures multiset(r) == multiset(s)
  {
    if s == [] then []
    else
      assert s == [s[0]] + s[1..];
      InsertName(s[0], SortNames(s[1..]))
  }

  /** Topics in ascending `order`, stated on neighbours. */
  predicate OrderSorted(s: seq<TopicEntry>) {
    forall i :: 0 < i < |s| ==> s[i - 1].order <= s[i].order
  }

  /** In a sorted sequence every topic is at least as late as every earlier one. */
  lemma {:induction false} OrderSortedPairs(s: seq<TopicEntry>)
    requires OrderSorted(s)
    ensures forall i, j :: 0 <= i < j < |s| ==> s[i].order <= s[j].order
    decreases |s|
  {
    if |s| > 1 {
      OrderSortedPairs(s[1..]);
      forall j | 1 <= j < |s|
        ensures s[0].order <= s[j].order
      {
        assert s[1..][0] == s[1] && s[1..][j - 1] == s[j];
      }
      forall i, j | 1 <= i < j < |s|
        ensures s[i].order <= s[j].order
      {
        assert s[1..][i - 1] == s[i] && s[1..][j - 1] == s[j];
      }
    }
  }

  /** The topics that carry order `k`, in sequence order. */
  function WithOrder(s: seq<TopicEntry>, k: int): (r: seq<TopicEntry>)
    ensures forall t :: t in r <==> t in s && t.order == k
  {
    if s == [] then []
    else if s[0].order == k then [s[0]] + WithOrder(s[1..], k)
    else WithOrder(s[1..], k)
  }

  lemma {:induction false} WithOrderAppend(a: seq<TopicEntry>, b: seq<TopicEntry>, k: int)
    ensures WithOrder(a + b, k) == WithOrder(a, k) + WithOrder(b, k)
    decreases |a|
  {
    if a == [] {
      assert a + b == b;
    } else {
      assert (a + b)[0] == a[0];
      assert (a + b)[1..] == a[1..] + b;
      WithOrderAppend(a[1..], b, k);
    }
  }

  /** Inserts `x` after every topic whose order is not greater. */
  function InsertByOrder(x: TopicEntry, s: seq<TopicEntry>): (r: seq<TopicEntry>)
    requires OrderSorted(s)
    ensures OrderSorted(r)
    ensures multiset(r) == multiset(s) + multiset{x}
    ensures r != [] && (r[0] == x || (s != [] && r[0] == s[0]))
  {
    if s == [] || x.order < s[0].order then
      ConsOrderSorted(x, s);
      [x] + s
    else
      var rest := InsertByOrder(x, s[1..]);
      assert s == [s[0]] + s[1..];
      ConsOrderSorted(s[0], rest);
      [s[0]] + rest
  }

  lemma ConsOrderSorted(h: TopicEntry, s: seq<TopicEntry>)
    requires OrderSorted(s)
    requires s != [] ==> h.order <= s[0].order
    ensures OrderSorted([h] + s)
  {
    forall i | 0 < i < |[h] + s|
      ensures ([h] + s)[i - 1].order <= ([h] + s)[i].order
    {
      if i > 1 {
        assert ([h] + s)[i - 1] == s[i - 2] && ([h] + s)[i] == s[i - 1];
      }
    }
  }

  /** `topics.sort((a, b) => a.order - b.order)`, a stable sort. */
  function SortByOrder(s: seq<TopicEntry>): (r: seq<TopicEntry>)
    ensures OrderSorted(r)
    ensures multiset(r) == multiset(s)
  {
    if s == [] then []
    else
      var init := s[..|s| - 1];
      assert s == init + [s[|s| - 1]];
      InsertByOrder(s[|s| - 1], SortByOrder(init))
  }

  /** An order value that no topic carries selects nothing. */
  lemma WithOrderAbsent(s: seq<TopicEntry>, k: int)
    requires forall i :: 0 <= i < |s| ==> s[i].order != k
    ensures WithOrder(s, k) == []
  {
  }

  /** Putting `x` in front of a sorted sequence it does not exceed keeps
      every order group as if `x` had been appended. */
  lemma InsertFrontStable(x: TopicEntry, s: seq<TopicEntry>, k: int)
    requires OrderSorted(s)
    requires s == [] || x.order < s[0].order
    ensures WithOrder([x] + s, k) == WithOrder(s, k) + WithOrder([x], k)
  {
    if s != [] && x.order == k {
      OrderSortedPairs(s);
      WithOrderAbsent(s, k);
    }
    WithOrderAppend([x], s, k);
  }

  /** Keeping the head in front preserves the order groups of what follows. */
  lemma ConsStable(h: TopicEntry, rest: seq<TopicEntry>, tail: seq<TopicEntry>, x: TopicEntry, k: int)
    requires WithOrder(rest, k) == WithOrder(tail, k) + WithOrder([x], k)
    ensures WithOrder([h] + rest, k) == WithOrder([h] + tail, k) + WithOrder([x], k)
  {
    WithOrderAppend([h], rest, k);
    WithOrderAppend([h], tail, k);
  }

  lemma {:induction false} InsertByOrderStable(x: TopicEntry, s: seq<TopicEntry>, k: int)
    requires OrderSorted(s)
    ensures WithOrder(InsertByOrder(x, s), k) == WithOrder(s, k) + WithOrder([x], k)
    decreases |s|
  {
    if s == [] || x.order < s[0].order {
      InsertFrontStable(x, s, k);
    } else {
      InsertByOrderStable(x, s[1..], k);
      ConsStable(s[0], InsertByOrder(x, s[1..]), s[1..], x, k);
      assert s == [s[0]] + s[1..];
    }
  }

  /** Stability: for every order value, the topics carrying it keep their
      relative order through the sort. Together with `OrderSorted` and the
      multiset equality this pins the sorted sequence down uniquely. */
  lemma {:induction false} SortByOrderStable(s: seq<TopicEntry>, k: int)
    ensures WithOrder(SortByOrder(s), k) == WithOrder(s, k)
    decreases |s|
  {
    if s != [] {
      var init, last := s[..|s| - 1], s[|s| - 1];
      assert s == init + [last];
      assert SortByOrder(s) == InsertByOrder(last, SortByOrder(init));
      SortByOrderStable(init, k);
      InsertByOrderStable(last, SortByOrder(init), k);
      WithOrderAppend(init, [last], k);
    }
  }

  /** One entry per file, in the given file order. */
  function MakeTopics(dir: string, files: seq<string>, read: string -> string, orderOf: string -> int): (r: seq<TopicEntry>)
    ensures |r| == |files|
    ensures forall i :: 0 <= i < |files| ==> r[i] == MakeTopic(dir, files[i], read(files[i]), orderOf)
  {
    seq(|files|, i requires 0 <= i < |files| => MakeTopic(dir, files[i], read(files[i]), orderOf))
  }

  /** The topic files of a project in file-name order, before the order sort. */
  function TopicsInFileOrder(dir: string, files: seq<string>, read: string -> string, orderOf: string -> int): seq<TopicEntry>
  {
    MakeTopics(dir, SortNames(MdFiles(files)), read, orderOf)
  }

  /** `readAll`: nothing when the topics directory is missing; otherwise one
      entry per ".md" file, sorted by `order`, with ties kept in file-name
      order. */
  function ReadAll(dirExists: bool, dir: string, files: seq<string>, read: string -> string, orderOf: string -> int): (r: seq<TopicEntry>)
    ensures !dirExists ==> r == []
    ensures dirExists ==> |r| == |MdFiles(files)|
    ensures forall i, j :: 0 <= i < j < |r| ==> r[i].order <= r[j].order
    ensures dirExists ==> multiset(r) == multiset(TopicsInFileOrder(dir, files, read, orderOf))
    ensures dirExists ==> forall k :: WithOrder(r, k) == WithOrder(TopicsInFileOrder(dir, files, read, orderOf), k)
  {
    if !dirExists then []
    else
      var inFileOrder := TopicsInFileOrder(dir, files, read, orderOf);
      var r := SortByOrder(inFileOrder);
      assert |SortNames(MdFiles(files))| == |MdFiles(files)| by {
        assert |multiset(SortNames(MdFiles(files)))| == |multiset(MdFiles(files))|;
      }
      assert |r| == |inFileOrder| by {
        assert |multiset(r)| == |multiset(inFileOrder)|;
      }
      OrderSortedPairs(r);
      forall k
        ensures WithOrder(r, k) == WithOrder(inFileOrder, k)
      {
        SortByOrderStable(inFileOrder, k);
      }
      r
  }

  /** Every entry made from a list of file names is made from one of them. */
  lemma {:induction false} MadeFromFile(dir: string, names: seq<string>, read: string -> string, orderOf: string -> int, t: TopicEntry)
    requires t in MakeTopics(dir, names, read, orderOf)
    ensures exists f :: f in names && t.filePath == dir + "/" + f
  {
    var i :| 0 <= i < |names| && MakeTopics(dir, names, read, orderOf)[i] == t;
    assert t == MakeTopic(dir, names[i], read(names[i]), orderOf);
  }

  /** Every topic `readAll` returns comes from a ".md" file of the listing. */
  lemma ReadAllFromMdFiles(dir: string, files: seq<string>, read: string -> string, orderOf: string -> int)
    ensures forall t :: t in ReadAll(true, dir, files, read, orderOf) ==>
              exists f :: f in files && EndsWith(f, MdSuffix) && t.filePath == dir + "/" + f
  {
    var names := SortNames(MdFiles(files));
    var inFileOrder := TopicsInFileOrder(dir, files, read, orderOf);
    forall t | t in ReadAll(true, dir, files, read, orderOf)
      ensures exists f :: f in files && EndsWith(f, MdSuffix) && t.filePath == dir + "/" + f
    {
      assert t in multiset(inFileOrder);
      MadeFromFile(dir, names, read, orderOf, t);
      var f :| f in names && t.filePath == dir + "/" + f;
      assert f in multiset(names);
      assert f in MdFiles(files);
    }
  }

  datatype TopicError = TopicNotFound(slug: string, project: string)

  /** `topics.find((t) => t.slug === slug)`, as an index. */
  function FindSlug(topics: seq<TopicEntry>, slug: string): (r: Option<nat>)
    ensures r.Some? ==> r.value < |topics| && topics[r.value].slug == slug
    ensures r.Some? ==> forall i :: 0 <= i < r.value ==> topics[i].slug != slug
    ensures r.None? ==> forall i :: 0 <= i < |topics| ==> topics[i].slug != slug
  {
    if topics == [] then None
    else if topics[0].slug == slug then Some(0)
    else match FindSlug(topics[1..], slug)
      case None => None
      case Some(i) => Some(i + 1)
  }

  /** Topic `i` is the first one carrying `slug`. */
  predicate FirstWithSlug(topics: seq<TopicEntry>, slug: string, i: int) {
    0 <= i < |topics| && topics[i].slug == slug && forall j :: 0 <= j < i ==> topics[j].slug != slug
  }

  /** `readOne`: the first topic with the slug in `readAll`'s order, or a
      not-found error naming the slug and the project. */
  function ReadOne(dirExists: bool, dir: string, files: seq<string>, read: string -> string, orderOf: string -> int,
                   project: string, slug: string): (r: Result<TopicEntry, TopicError>)
    ensures var all := ReadAll(dirExists, dir, files, read, orderOf);
            r.Ok? ==> exists i :: FirstWithSlug(all, slug, i) && all[i] == r.value
    ensures var all := ReadAll(dirExists, dir, files, read, orderOf);
            r.Err? <==> forall i :: 0 <= i < |all| ==> all[i].slug != slug
    ensures r.Err? ==> r.error == TopicNotFound(slug, project)
  {
    var all := ReadAll(dirExists, dir, files, read, orderOf);
    match FindSlug(all, slug)
    case None => Err(TopicNotFound(slug, project))
    case Some(i) =>
      assert FirstWithSlug(all, slug, i);
      Ok(all[i])
  }
}
